=== FILE: README.md ===
# MaterialTextView and ClickableLabel — a Dafny model

This project models the logic of two UIKit widgets:

- **MaterialTextView**: a text field with a floating label. Its view-model (`MaterialTextViewModel`) holds the text, help text, error state, focus state and placeholder. It re-validates the text on every change and notifies the bound view and then the delegate.
- **ClickableLabel**: a label with tappable links. Each link is registered under the character range where its string first occurs. A press highlights the link, a release fires it, and a cancel restores the label.

Everything is modelled as immutable records and pure transitions. A setter returns the new record together with the ordered notifications it sends. Platform services become inputs. Text measurement is the `measured` height. Glyph hit-testing is the character index the layout reports for a touch. First-responder status is a boolean. The iOS version check is `atLeastIOS13`.

Modules, one per source file or component:

| module | file | models |
|---|---|---|
| `Optional` | optional.dfy | Swift's `Optional` |
| `AttributedText` | attributed_text.dfy | the platform's attributed string, `NSRange` and `addAttributes` |
| `StringExtensions` | string_extensions.dfy | NSAttributedString+Extensions.swift |
| `FontName` | font_name.dfy | UIFont+Extensions.swift |
| `ViewModel` | view_model.dfy | MaterialTextViewModel.swift |
| `FieldGlue` | field_glue.dfy | the editing callbacks of MaterialTextView+Extensions.swift |
| `FieldView` | field_view.dfy | the decision logic of MaterialTextView.swift, and the view's `validate()` |
| `Clickable` | clickable_text.dfy | ClickableText.swift |
| `ClickableLabel` | clickable_label.dfy | ClickableLabel.swift |

The source files come from different revisions:

- MaterialTextViewModel.swift has a two-case `ErrorState` (`normal`, `error`) and a two-case placeholder type (`normal`, `animated`). `ViewModel` models exactly that revision.
- MaterialTextView.swift and its extensions read a later view-model. That view-model has a `linkError` state, an `alwaysOnTop` placeholder, a component mode, a line limit, a paragraph style and right-button info. `FieldView.Model` is a record of only the fields the view reads.
- That later view-model is not part of this model. The `isError` of its three-case error state is taken to be true for both error cases.
- The editing glue (`FieldGlue`) calls the setters of `ViewModel`.

Observers are represented as an ordered log. Every notification is logged for the view and then for the delegate. Both are weak references in the source, and a nil observer simply has no entries. The same holds for the view's delegate and the view-model's optional hooks.

`Link` and `ClickableText` are datatypes. Their memberwise initialisers (ClickableLabel/ClickableText.swift:17-21 and 31-34) are the datatype constructors, which keep the fields as given and the links in order.

## Model

| member | source | states |
|---|---|---|
| `ViewModel.Outcome` | MaterialTextView/MaterialTextViewModel.swift:184-191 | the mapped state is an error exactly when the validator refused, and it carries the validator's message |
| `ViewModel.Init` | MaterialTextView/MaterialTextViewModel.swift:157-173 | a new view-model keeps the given text, help and placeholder; with the property defaults of lines 90, 97 and 117-118 it has no error, is inactive, counts its input as valid and has no action validation passed yet |
| `ViewModel.InitConsistent` | MaterialTextView/MaterialTextViewModel.swift:157-173 | a new view-model whose input validator (if any) accepts the initial text agrees with that validator, and keeps agreeing through any run of text assignments |
| `ViewModel.SetPlaceholder` | MaterialTextView/MaterialTextViewModel.swift:74-83 | an equal placeholder changes nothing and notifies nobody; a different one is stored and reported with `isChanged` true, to the view and then the delegate |
| `ViewModel.SetIsActive` | MaterialTextView/MaterialTextViewModel.swift:90-95 | every assignment, even of the current value, sends a state change with the current error state |
| `ViewModel.SetErrorState` | MaterialTextView/MaterialTextViewModel.swift:98-109 | the setter notifies if and only if the value differs |
| `ViewModel.SetHelp` | MaterialTextView/MaterialTextViewModel.swift:146-151 | every assignment stores the help text and announces it |
| `ViewModel.SetText` | MaterialTextView/MaterialTextViewModel.swift:123-144 | assigning the current text is a no-op; otherwise the text is stored, the error state becomes the input validator's verdict on the new text (unchanged without a validator), `wasInputValid` equals "no error", and nothing else changes |
| `ViewModel.SettersNotifyViewThenDelegate` | MaterialTextView/MaterialTextViewModel.swift:74-151 | every setter, `validate()` included, sends each notification to the view and then the same one to the delegate |
| `ViewModel.SetTextEvents` | MaterialTextView/MaterialTextViewModel.swift:135-142 | the notifications of a text change come in view/delegate pairs and end with the new text; every earlier one is a state change carrying the unchanged activity and the new error state; there is one such pair if the error state changed, plus one more exactly when the placeholder is plain and the old or new text is empty |
| `ViewModel.StateChangesCarryNewState` | MaterialTextView/MaterialTextViewModel.swift:127-140 | before the final text notification, a text change sends only state changes with the unchanged activity and the new error state |
| `ViewModel.AnimatedTextChangeHasNoRelayout` | MaterialTextView/MaterialTextViewModel.swift:135-140 | with an animated placeholder, a text change adds no state change of its own |
| `ViewModel.AssignTextsKeepsConsistency` | MaterialTextView/MaterialTextViewModel.swift:127-134 | text assignments keep the error state and `wasInputValid` in agreement with the input validator's verdict on the current text |
| `ViewModel.AssignTextsEndsConsistent` | MaterialTextView/MaterialTextViewModel.swift:127-134 | after any run of text assignments, either nothing changed, or the error state is the validator's verdict on the final text and `wasInputValid` agrees with it |
| `ViewModel.LengthValidatorScenario` | MaterialTextView/MaterialTextViewModel.swift:127-134 | with a validator refusing more than five characters, "123456" gives an error and `wasInputValid` false; then "123" gives no error and true |
| `ViewModel.ValidateAsWritten` | MaterialTextView/MaterialTextViewModel.swift:178-181 | the code as written: `wasInputValid` becomes true exactly when the action validator refuses, the error state is untouched, and the stale `wasActionValid` is returned |
| `ViewModel.ValidateAsWrittenRejectsValidText` | MaterialTextView/MaterialTextViewModel.swift:178-181 | an accepted text leaves `wasInputValid` false and `validate()` answering false |
| `ViewModel.Validate` | MaterialTextView/MaterialTextViewModel.swift:178-191 | corrected: the answer is true exactly when the action validator accepts the current text; the error state is its verdict, `wasActionValid` equals the answer, and notifications are sent only if the error state changed |
| `FieldGlue.TextComponentDidChange` | MaterialTextView/MaterialTextView+Extensions.swift:29-36 | with updates enabled the model's text ends equal to the component's text and updates stay enabled; the text is written only when it differs, `didChange` reaches the delegate at most once and last, and otherwise nothing happens |
| `FieldGlue.ShouldChangeText` | MaterialTextView/MaterialTextView+Extensions.swift:38-47 | a change is allowed exactly when neither the delegate nor the view-model hook refuses it; an absent party does not refuse |
| `FieldGlue.DelegateVetoIsFinal` | MaterialTextView/MaterialTextView+Extensions.swift:39-42 | a delegate's refusal holds whatever the hook answers |
| `FieldGlue.DidBeginEditing` | MaterialTextView/MaterialTextView+Extensions.swift:55-60 | beginning an edit sets `hadInput` and makes the model active, then calls the model hook and the delegate |
| `FieldGlue.DidEndEditing` | MaterialTextView/MaterialTextView+Extensions.swift:49-53 | ending an edit makes the model inactive and leaves `hadInput` as it was |
| `FieldGlue.RunFlags` | MaterialTextView/MaterialTextView+Extensions.swift:29-60 | over any run of component callbacks `shouldUpdate` keeps its value, and `hadInput` ends true exactly when it started true or the run began an edit |
| `FieldGlue.RunEndsMirroringText` | MaterialTextView/MaterialTextView+Extensions.swift:29-36 | after any run that ends with a did-change, the model's text equals the component's text |
| `FieldView.Outcome` | MaterialTextView/MaterialTextView+Extensions.swift:106-116 | the mapped state is an error exactly when the validator refused, and it carries the refusal's message |
| `FieldView.OutcomeFaithful` | MaterialTextView/MaterialTextView+Extensions.swift:106-116 | a verdict is an error exactly when it is a refusal; the message is kept; a link error appears exactly when the refusal names a link text or a URL, and it carries both |
| `FieldView.Validate` | MaterialTextView/MaterialTextView+Extensions.swift:97-103 | the view's `validate()` answers true exactly when the action validator accepts the current text; the error state is its verdict, `wasActionValid` equals the answer, and nothing else changes |
| `FieldView.HelpText` | MaterialTextView/MaterialTextView.swift:73-82 | the help label shows either the help text or the message of an error state, and the help text whenever there is no error |
| `FieldView.HelpTextFollowsError` | MaterialTextView/MaterialTextView.swift:73-84 | the help label shows the message of a plain error, and the help text in every other state |
| `FieldView.LinkErrorRendersAsNormal` | MaterialTextView/MaterialTextView.swift:76-82 | a link error is an error, yet the view shows the help text and gives the title a normal visual state |
| `FieldView.TitleSlot` | MaterialTextView/MaterialTextView.swift:96-129 | the chosen visual state is active exactly when the field is active, and erroneous exactly when the error flag is set |
| `FieldView.TitleSlotInjective` | MaterialTextView/MaterialTextView.swift:96-129 | each of the four visual states is chosen by exactly one (active, error) pair |
| `FieldView.LabelsAfter` | MaterialTextView/MaterialTextView.swift:90-134 | `alwaysOnTop` shows only the title, with identity transforms. Otherwise the placeholder shows exactly when both texts are empty and the field is inactive or the placeholder is plain, and the title shows exactly when the placeholder is animated and the field is active or has text. The title is moved (onto the placeholder, which is then reset) exactly for an animated, inactive, empty field whose title is laid out; an active field moves an animated placeholder onto the title unless it is already moved; in every other case the placeholder keeps its transform |
| `FieldView.LabelsExclusive` | MaterialTextView/MaterialTextView.swift:90-134 | the title and the placeholder are never visible together |
| `FieldView.NormalPlaceholderIgnoresFocus` | MaterialTextView/MaterialTextView.swift:92-113 | a plain placeholder shows exactly while there is no text, active or not, and the title never shows |
| `FieldView.PlaceholderAnimationDuration` | MaterialTextView/MaterialTextView.swift:86-136 | the placeholder transition takes no time for a plain placeholder or before the first interaction, and the configured duration otherwise |
| `FieldView.LineAnimation` | MaterialTextView/MaterialTextView.swift:139-146 | the line style is animated with the line duration exactly once the user has interacted |
| `FieldView.DefaultDurationsAfterInput` | MaterialTextView/MaterialTextView.swift:43-44 | with the starting durations, a state change after the first input moves a non-plain placeholder in 0.15 s and restyles the line in 0.1 s |
| `FieldView.ChangeTextStates` | MaterialTextView/MaterialTextView.swift:70-150 | a state change renders the help text, the title's visual state, the placeholder text as title and the label choreography; the placeholder moves in the configured time after input unless it is plain (then at once), the line is animated with the configured time exactly after input, and before any interaction nothing is animated |
| `FieldView.FocusAfterStateChange` | MaterialTextView/MaterialTextView.swift:283-292 | focus is requested exactly when the model is active and the component unfocused; it is resigned exactly when the model is inactive and the component focused |
| `FieldView.FocusFollowsIsActive` | MaterialTextView/MaterialTextView.swift:287-291 | once the request is granted, the component is focused exactly when the model is active |
| `FieldView.ShowRightButton` | MaterialTextView/MaterialTextView.swift:209-213 | showing the button activates only the constraint to the button |
| `FieldView.HideRightButton` | MaterialTextView/MaterialTextView.swift:215-219 | hiding the button activates only the constraint to the view's edge |
| `FieldView.RightButtonChanged` | MaterialTextView/MaterialTextView.swift:200-219 | the button is hidden exactly when there is no button info, and exactly one trailing constraint is active |
| `FieldView.TextViewHeight` | MaterialTextView/MaterialTextView.swift:297-303 | a text field is one line plus one point high. A text view is never shorter than one line. It takes the measured height when that lies between one line and the cap (`maxLines` lines less a sixth of a line); below that it takes one line, and above it the cap. When the cap itself is below one line (a limit of one line), the height is one line |
| `FieldView.UpdateTextViewHeight` | MaterialTextView/MaterialTextView.swift:294-303 | the height follows the rule of `TextViewHeight` with a line height of the paragraph style's minimum line height plus spacing, or 16 + 4 without a style: a text field is then 21 points high and a text view at least 20 |
| `FieldView.GetAttributedText` | MaterialTextView/MaterialTextView.swift:316-325 | the measured text spells the component's text (no format) or the model's text (with a format), and is a single space in the style's text attributes when that is empty |
| `StringExtensions.NonEmpty` | MaterialTextView/NSAttributedString+Extensions.swift:23-27 | the result is never empty; it is a space for the empty string and the string itself otherwise |
| `StringExtensions.NonEmptyOptional` | MaterialTextView/NSAttributedString+Extensions.swift:12-21 | nil is treated as the empty string, so the result is a space; a value goes through `nonEmpty` |
| `StringExtensions.NonEmptyIdempotent` | MaterialTextView/NSAttributedString+Extensions.swift:24-26 | `nonEmpty` applied twice equals `nonEmpty` applied once |
| `StringExtensions.NonEmptyFixedPoints` | MaterialTextView/NSAttributedString+Extensions.swift:24-26 | `nonEmpty` leaves a string unchanged exactly when it is non-empty |
| `StringExtensions.SafeAttributes` | MaterialTextView/NSAttributedString+Extensions.swift:29-36 | the empty string yields no attributes at any index, negative ones included; otherwise the attributes of the character at the index |
| `StringExtensions.SafeAttributesOfUniform` | MaterialTextView/NSAttributedString+Extensions.swift:29-36 | on a uniformly attributed string every index answers those attributes, and the empty string answers none |
| `StringExtensions.DefaultParagraphStyle` | MaterialTextView/NSAttributedString+Extensions.swift:38-45 | the default paragraph style has a minimum line height of 16 and a spacing of 4, so a default line is 20 points high |
| `StringExtensions.LineHeightOf` | MaterialTextView/MaterialTextView.swift:297-298 | the line height is the paragraph style's minimum line height plus its spacing; without a style it falls back to the default style of `StringExtensions.DefaultParagraphStyle` (NSAttributedString+Extensions.swift:38-45), giving 20 |
| `FontName.GetFontName` | MaterialTextView/UIFont+Extensions.swift:13-20 | from iOS 13 a name starting with "." is that dot followed by the result; any other name, and every name below iOS 13, is returned unchanged |
| `FontName.GetFontNameIsSuffix` | MaterialTextView/UIFont+Extensions.swift:15-16 | the result is a suffix of the name, either as long or exactly one character shorter |
| `FontName.GetFontNameStripsOneDot` | MaterialTextView/UIFont+Extensions.swift:15-16 | a name with two leading dots keeps its second dot |
| `Clickable.Empty` | ClickableLabel/ClickableText.swift:26 | the empty clickable text has an empty title and no links |
| `Clickable.TitleOnly` | ClickableLabel/ClickableText.swift:31-34 | a title given without links keeps the title and has no links |
| `ClickableLabel.Init` | ClickableLabel/ClickableLabel.swift:28-30 | a new label has no text, no clickable text, no registered links and no interaction |
| `ClickableLabel.FindFrom` | ClickableLabel/ClickableLabel.swift:58 | the answer is the first position from the start index where the needle occurs, or none when it occurs nowhere after it |
| `ClickableLabel.RangeOf` | ClickableLabel/ClickableLabel.swift:58 | a range is found exactly when the needle is non-empty and occurs; it has the needle's length and marks its first occurrence |
| `ClickableLabel.SetLinkAttributes` | ClickableLabel/ClickableLabel.swift:54-66 | without text nothing happens. Otherwise the string is unchanged, the link's first-character attributes are added over the first occurrence of its string, and the link is registered under that range, replacing any earlier link there |
| `ClickableLabel.ApplyLinks` | ClickableLabel/ClickableLabel.swift:49-51 | applying the links in order keeps the string and adds to the registry the registry of those links, later ones overwriting earlier ones. Every character is kept. A character no link covers keeps its cell. In a covered character, an attribute no covering link sets keeps the title's value (or stays absent), and one that some covering link sets takes the value of the last such link's first character; so the last covering link's attributes are all there |
| `ClickableLabel.ApplyLinksIgnoresRegistry` | ClickableLabel/ClickableLabel.swift:49-51 | the styled text does not depend on the registry the links are applied to: starting from another registry gives the same label, with that registry plus the links' own |
| `ClickableLabel.RegistryContents` | ClickableLabel/ClickableLabel.swift:49-65 | the registry's keys are exactly the first-occurrence ranges of the links; under a range sits the last link registered there |
| `ClickableLabel.SameStringLastWins` | ClickableLabel/ClickableLabel.swift:58-65 | two links with the same string leave only the second registered |
| `ClickableLabel.UpdateAppearanceAsWritten` | ClickableLabel/ClickableLabel.swift:41-52 | the code as written: the clickable text and the backup are never changed, and nothing else happens without a clickable text. Otherwise the title's characters are shown, styled by its links as `ApplyLinks` states, interaction is on exactly when there are links, and the links are added to the registry that was already there |
| `ClickableLabel.UpdateAppearance` | ClickableLabel/ClickableLabel.swift:41-52 | corrected: the clickable text and backup are kept, the title is shown styled by its links and interaction is on exactly when there are links, as written; but the registry holds exactly the links of the text on display, all within it |
| `ClickableLabel.ShowingLinklessText` | ClickableLabel/ClickableLabel.swift:18-26 | through the setter as written, a text without links, the empty clickable text included, is shown as its title with interaction off, and the links registered before stay registered; the corrected setter registers nothing |
| `ClickableLabel.StaleLinkSurvivesAsWritten` | ClickableLabel/ClickableLabel.swift:18-26 | replacing "abcd" (a link over all of it, action 1) with "xy" (a link on "y") leaves, as written, an interactive label whose registry still maps the range 0..4 to action 1; that range holds index 0 and reaches past the end of "xy". The corrected setter registers only "y" |
| `ClickableLabel.StaleReleaseFiresOldAction` | ClickableLabel/ClickableLabel.swift:102-113 | in that scenario, a release at index 0 of "xy" fires action 1, the first text's action |
| `ClickableLabel.QuietStaleRegistry` | ClickableLabel/ClickableLabel.swift:18-26 | replacing "abcd" (an uncoloured link on "cd") with "xy" (an uncoloured link on "x") leaves, as written, the range 2..4 registered past the end of "xy" |
| `ClickableLabel.QuietStalePress` | ClickableLabel/ClickableLabel.swift:73-93 | on that label a press at index 0 highlights the range of "x": a registry past the end does no harm while the hit link has no highlight colour |
| `ClickableLabel.SetClickableText` | ClickableLabel/ClickableLabel.swift:18-26 | the setter as written stores the value and keeps the backup; with a clickable text it shows the title's characters styled by its links, turns interaction on exactly when there are links, and adds the links to the registry already there; with nil it changes nothing else |
| `ClickableLabel.SetClickableTextCorrected` | ClickableLabel/ClickableLabel.swift:18-26 | corrected: as written (the title's characters, styled by its links), but the registry then holds exactly the new value's links, all within its title |
| `ClickableLabel.SettersAgreeWhenNothingRegistered` | ClickableLabel/ClickableLabel.swift:18-26 | on a label with nothing registered, the setter as written and the corrected one give the same label |
| `ClickableLabel.InitWith` | ClickableLabel/ClickableLabel.swift:32-35 | a label made from a clickable text shows its title's characters styled by its links, registers exactly its links, all within the title, and is interactive exactly when there are links |
| `ClickableLabel.CharacterIndex` | ClickableLabel/ClickableLabel.swift:117-118 | the index is -1 exactly when the label has no text |
| `ClickableLabel.NoTextHitsNothing` | ClickableLabel/ClickableLabel.swift:138-147 | the index -1 lies in no registered range |
| `ClickableLabel.AttributedTextRange` | ClickableLabel/ClickableLabel.swift:138-147 | a found range is registered and contains the index; nothing is found exactly when no registered range contains it |
| `ClickableLabel.HighlightedText` | ClickableLabel/ClickableLabel.swift:80-84 | the pressed text keeps its string; with a highlight colour only the hit range takes that foreground colour, and without one nothing changes, whether or not the range fits |
| `ClickableLabel.FitsAllowEveryPress` | ClickableLabel/ClickableLabel.swift:80-84 | a registry that fits the text leaves every press able to highlight without raising |
| `ClickableLabel.TouchesBegan` | ClickableLabel/ClickableLabel.swift:73-93 | without text nothing happens. Otherwise the shown text is saved as backup. A hit highlights a registered range holding a touch that only misses precede, and skips the default handling. A miss leaves the text and is passed on, because no touch lands in any range. Whether the registry fits the text is unchanged |
| `ClickableLabel.TouchesEnded` | ClickableLabel/ClickableLabel.swift:102-113 | the backup is shown again; at most one action fires, that of a registered range holding a release position; none fires exactly when no release position is in a range |
| `ClickableLabel.TouchesCancelled` | ClickableLabel/ClickableLabel.swift:95-100 | the backup is shown again, the registry is kept and no action fires |
| `ClickableLabel.Tap` | ClickableLabel/ClickableLabel.swift:73-113 | on a label whose press cannot raise, a press then a release ends with the pre-press text; any fired action is that of a range holding a release position, wherever the press was |
| `ClickableLabel.PressThenCancel` | ClickableLabel/ClickableLabel.swift:73-100 | on a label whose press cannot raise, a press then a cancel shows exactly the pre-press text again |

## Left out

- Constraint layout, subview wiring, accessibility strings, caret scrolling and the execution of UIKit/Core Animation animations (`makeLayout`, `addTextComponent`, CALayer+Extentions.swift). These are framework side effects; only the chosen durations, visibilities and active constraints are modelled.
- The scale-and-translate transform (CGAffineTransform+Extensions.swift). It is floating-point geometry over runtime frames, so a transform is only named: identity, placeholder on title, or title on placeholder.
- Text measurement (`boundingRect`) and glyph hit-testing (`NSLayoutManager` in `characterIndex`). Both depend on the platform's layout, so the measured height and the reported character index are inputs.
- MaterialTextComponent.swift and the formatting/masking it delegates to the external FormattableTextView library, together with `replaceTextComponent`, formats and format symbols. The component is represented by its text, formatted text, attributed text and first-responder status.
- The newer view-model's `style`, `textComponentMode`, `formats` and `rightButtonInfo` setters. That view-model is not part of this model; only the fields the view reads are kept.
- `lineMode`, `format` and `rightButtonInfo` of the view-model revision in MaterialTextViewModel.swift. They are immutable and never read by its logic.
- Weak references, delegate identity and object lifetime. Observers are an ordered log.
- How the view reacts to the notifications that `ViewModel` sends, including those sent while `shouldUpdate` is false. In that case only the attribute update is skipped (MaterialTextView/MaterialTextView.swift:268-270). The height update still runs (line 271). So do the re-render and the focus sync, because line 438 calls `placeholderChanged`, which calls `stateChanged` (lines 67 and 283-292). They are modelled separately as `FieldView.UpdateTextViewHeight`, `FieldView.ChangeTextStates` and `FieldView.FocusAfterStateChange`, and are not composed with `FieldGlue`.
- The image of the right button and its action closure, because they are UIKit resources.
- Link and button actions are identified by a number rather than run, because running them calls code that is not part of this model.
- UIColor+Extensions.swift and NSParagraphStyle+Extensions.swift. One is a float colour constant; the other duplicates the default paragraph style kept in `StringExtensions`.
- The example app, the snapshot tests and Package.swift, which are glue, fixtures and build configuration.
- `FieldView.Validate`: does not return the notifications of the later view-model's `errorState` setter or the re-render that `stateChanged` performs. That setter is not part of this model, and the re-render is `ChangeTextStates`.
- The `lineBreakMode` and `numberOfLines` that `updateAppearance` sets, because they only affect layout.
- `StringExtensions.SafeAttributes`: does not return the effective-range out-parameter, because it is a pointer write into the caller's storage. On a non-empty string it requires the index to lie inside the string, because there the platform raises for a negative or past-the-end index, so that path is not modelled. On the empty string every index, negative ones included, is accepted and answers no attributes.
- `FieldView.GetAttributedText` takes as given that the component's attributed text spells its plain text. Both platform components guarantee this (MaterialTextView/MaterialTextComponent.swift:33-61).
- `ClickableLabel.SetLinkAttributes` requires a non-empty link string that occurs in the text. Otherwise the platform raises, at `attributes(at: 0)` or `addAttributes` with a not-found range.
- `ClickableLabel.TouchesBegan` requires that a range the press can pick fits the shown text when its link has a highlight colour, because otherwise the platform raises in `addAttributes`. Uncoloured links and ranges no touch reaches are not constrained. The corrected `UpdateAppearance` keeps every range within the text; the code as written can leave a coloured one past the end (see Findings).
- Heights, line counts, spacings and animation durations, which are `CGFloat` or `Double` in the source, are exact `real` numbers. Rounding is not modelled, so a comparison the source makes near a boundary, as in `FieldView.TextViewHeight`, can come out the other way there.
- Characters are sequence elements, whereas the platform indexes UTF-16 units. They coincide for text in the Basic Multilingual Plane.
- String equality and substring search are element-by-element equality. This covers the text guards of `ViewModel` and `FieldGlue`, `ClickableLabel.FindFrom` and `ClickableLabel.RangeOf`, and the leading-dot test of `FontName.GetFontName`. Swift's `==` and `NSString.range(of:)` match canonically equivalent text, and `starts(with:)` and `dropFirst()` work on grapheme clusters. The model is exact for text in one normalisation form where every character is its own grapheme cluster. For other text it can see a change that the source sees as none: for example, assigning "e" plus a combining acute accent to a text holding "é".

## Findings

A link error counts as an error for validation, but `changeTextStates` shows the help text and a normal title for it, as if there were no error (`FieldView.LinkErrorRendersAsNormal`). The model keeps that behaviour, since the intent is unclear. The two rows below are places where the code itself looks wrong.

| source | as written | input that shows it | evidently intended | confidence | as-written member | corrected member |
|---|---|---|---|---|---|---|
| MaterialTextView/MaterialTextViewModel.swift:178-181 | `validate()` stores the action verdict's `isError` into `wasInputValid`, leaves the error state alone, and returns `wasActionValid`, which nothing in MaterialTextViewModel.swift assigns (only the view's own `validate()` writes it, at MaterialTextView+Extensions.swift:100) | an action validator that accepts every text: `wasInputValid` becomes false and `validate()` answers false | set the error state from the verdict, store "no error" in `wasActionValid` and return it, as the view's own `validate()` does | high, not executed | `ViewModel.ValidateAsWritten`, `ViewModel.ValidateAsWrittenRejectsValidText` | `ViewModel.Validate` |
| ClickableLabel/ClickableLabel.swift:41-52 | `updateAppearance` never clears the range registry, so links of an earlier clickable text stay registered | show "abcd" with a red-highlighted link over all of it (action 1), then "xy" with a link on "y": the label stays interactive, range 0..4 stays registered, a release at index 0 fires action 1, and a press there highlights past the end of "xy", where the platform raises | the registry holds the links of the text on display only | medium, not executed | `ClickableLabel.UpdateAppearanceAsWritten`, `ClickableLabel.SetClickableText`, `ClickableLabel.StaleLinkSurvivesAsWritten`, `ClickableLabel.StaleReleaseFiresOldAction` | `ClickableLabel.UpdateAppearance`, `ClickableLabel.SetClickableTextCorrected` |

=== FILE: attributed_text.dfy ===
/**
 A value model of the platform's attributed string: a sequence of characters,
 each carrying its own attribute dictionary. Attribute keys and values are
 plain strings (a colour or a font is represented by its name).
 Character positions are UTF-16 units in the platform; here they are the
 positions of the sequence.
 */
module AttributedText {

  type Attributes = map<string, string>

  /** The attribute key under which a foreground colour is stored. */
  const ForegroundColor: string := "NSColor"

  datatype Cell = Cell(ch: char, attributes: Attributes)

  datatype AttrString = AttrString(cells: seq<Cell>) {

    /** The underlying plain string (`NSAttributedString.string`). */
    function Plain(): (s: string)
      ensures |s| == |cells|
      ensures forall i :: 0 <= i < |cells| ==> s[i] == cells[i].ch
    {
      seq(|cells|, i requires 0 <= i < |cells| => cells[i].ch)
    }

    predicate IsEmpty()
    {
      |cells| == 0
    }
  }

  /** `NSAttributedString(string:attributes:)`: every character gets `attrs`. */
  function Uniform(s: string, attrs: Attributes): (a: AttrString)
    ensures a.Plain() == s
    ensures forall i :: 0 <= i < |s| ==> a.cells[i].attributes == attrs
  {
    AttrString(seq(|s|, i requires 0 <= i < |s| => Cell(s[i], attrs)))
  }

  /** `NSRange`: both fields are unsigned in the platform. */
  datatype Range = Range(location: nat, length: nat) {

    function End(): nat
    {
      location + length
    }

    /** `NSLocationInRange(index, self)`. A negative index (the platform's
        `-1` for "no character") lies in no range. */
    predicate Contains(index: int)
    {
      location <= index < location + length
    }
  }

  /**
   `NSMutableAttributedString.addAttributes(_:range:)`: merges `extra` into the
   attributes of every character inside `r`, a key already present taking the
   new value. The platform raises on a range past the end, hence the requires.
   */
  function AddAttributes(a: AttrString, r: Range, extra: Attributes): (b: AttrString)
    requires r.location + r.length <= |a.cells|
    ensures |b.cells| == |a.cells|
    ensures b.Plain() == a.Plain()
    ensures forall i :: 0 <= i < |a.cells| && r.Contains(i) ==> b.cells[i].attributes == a.cells[i].attributes + extra
    ensures forall i :: 0 <= i < |a.cells| && !r.Contains(i) ==> b.cells[i] == a.cells[i]
  {
    AttrString(seq(|a.cells|, i requires 0 <= i < |a.cells| =>
      if r.Contains(i) then Cell(a.cells[i].ch, a.cells[i].attributes + extra) else a.cells[i]))
  }

  /** A cell carries every attribute of `extra`, with `extra`'s value. */
  ghost predicate Carries(c: Cell, extra: Attributes)
  {
    forall k :: k in extra ==> k in c.attributes && c.attributes[k] == extra[k]
  }

  /** No range of `ranges` covers position `i`. */
  predicate Uncovered(ranges: seq<Range>, i: int)
  {
    forall j :: 0 <= j < |ranges| ==> !ranges[j].Contains(i)
  }

  /** Range `j` is the last of `ranges` to cover position `i`. */
  predicate LastCovers(ranges: seq<Range>, i: int, j: int)
  {
    0 <= j < |ranges| && ranges[j].Contains(i) && forall j' :: j < j' < |ranges| ==> !ranges[j'].Contains(i)
  }

  /** No range of `ranges` that covers position `i` sets key `k`. */
  predicate Untouched(ranges: seq<Range>, extras: seq<Attributes>, i: int, k: string)
    requires |ranges| == |extras|
  {
    forall j :: 0 <= j < |ranges| && ranges[j].Contains(i) ==> k !in extras[j]
  }

  /** Range `j` is the last of `ranges` that covers position `i` and sets
      key `k`. */
  predicate LastSets(ranges: seq<Range>, extras: seq<Attributes>, i: int, k: string, j: int)
    requires |ranges| == |extras|
  {
    && 0 <= j < |ranges| && ranges[j].Contains(i) && k in extras[j]
    && forall j' :: j < j' < |ranges| && ranges[j'].Contains(i) ==> k !in extras[j']
  }

  /**
   How adding `extras[0]`, `extras[1]`, ... over `ranges[0]`, `ranges[1]`,
   ... in turn styles `title` into `shown`. Every character is kept. A
   character that no range covers keeps its whole cell, and a character whose
   last covering range is `j` carries every attribute of `extras[j]`. In
   general a key that no covering range sets keeps the title's value (and
   stays absent if the title lacks it), and a key that some covering range
   sets takes the value of the last such range.
   */
  ghost predicate Styled(shown: AttrString, title: AttrString, ranges: seq<Range>, extras: seq<Attributes>)
    requires |ranges| == |extras|
  {
    && |shown.cells| == |title.cells|
    && forall i {:trigger StyledAt(shown, title, ranges, extras, i)} :: 0 <= i < |title.cells| ==> StyledAt(shown, title, ranges, extras, i)
  }

  /** `Styled` at position `i`, which must lie within both strings. */
  ghost predicate StyledAt(shown: AttrString, title: AttrString, ranges: seq<Range>, extras: seq<Attributes>, i: int)
    requires |ranges| == |extras|
  {
    && 0 <= i < |shown.cells| && 0 <= i < |title.cells|
    && shown.cells[i].ch == title.cells[i].ch
    && (Uncovered(ranges, i) ==> shown.cells[i] == title.cells[i])
    && (forall j {:trigger LastCovers(ranges, i, j)} :: LastCovers(ranges, i, j) ==> Carries(shown.cells[i], extras[j]))
    && (forall k {:trigger Untouched(ranges, extras, i, k)} :: Untouched(ranges, extras, i, k) ==>
          && (k in shown.cells[i].attributes <==> k in title.cells[i].attributes)
          && (k in title.cells[i].attributes ==> shown.cells[i].attributes[k] == title.cells[i].attributes[k]))
    && (forall k, j {:trigger LastSets(ranges, extras, i, k, j)} :: LastSets(ranges, extras, i, k, j) ==>
          k in shown.cells[i].attributes && shown.cells[i].attributes[k] == extras[j][k])
  }

  /** Adding one more range's attributes keeps `Styled`. */
  lemma StyledStep(title: AttrString, ranges: seq<Range>, extras: seq<Attributes>,
                   before: AttrString, range: Range, extra: Attributes, after: AttrString)
    requires |ranges| == |extras| && Styled(before, title, ranges, extras)
    requires range.location + range.length <= |before.cells| && after == AddAttributes(before, range, extra)
    ensures Styled(after, title, ranges + [range], extras + [extra])
  {
    var rs, es := ranges + [range], extras + [extra];
    assert forall j :: 0 <= j < |ranges| ==> rs[j] == ranges[j] && es[j] == extras[j];
    forall i | 0 <= i < |title.cells|
      ensures StyledAt(after, title, rs, es, i)
    {
      StyledCellStep(title, ranges, extras, before, range, extra, after, i);
    }
  }

  /** `StyledStep` at one position. */
  lemma StyledCellStep(title: AttrString, ranges: seq<Range>, extras: seq<Attributes>,
                       before: AttrString, range: Range, extra: Attributes, after: AttrString, i: int)
    requires |ranges| == |extras| && Styled(before, title, ranges, extras) && 0 <= i < |title.cells|
    requires range.location + range.length <= |before.cells| && after == AddAttributes(before, range, extra)
    ensures StyledAt(after, title, ranges + [range], extras + [extra], i)
  {
    var rs, es := ranges + [range], extras + [extra];
    assert forall j :: 0 <= j < |ranges| ==> rs[j] == ranges[j] && es[j] == extras[j];
    assert StyledAt(before, title, ranges, extras, i);
    assert after.cells[i].ch == after.Plain()[i] == before.Plain()[i] == before.cells[i].ch;
    var a, b := after.cells[i].attributes, before.cells[i].attributes;
    assert range.Contains(i) ==> a == b + extra;
    assert !range.Contains(i) ==> a == b;
    if Uncovered(rs, i) {
      assert !rs[|ranges|].Contains(i);
      assert Uncovered(ranges, i);
    }
    forall j | LastCovers(rs, i, j)
      ensures Carries(after.cells[i], es[j])
    {
      if j < |ranges| {
        assert !rs[|ranges|].Contains(i);
        assert LastCovers(ranges, i, j);
      } else {
        CarriesUnion(b, extra);
      }
    }
    forall k | Untouched(rs, es, i, k)
      ensures k in a <==> k in title.cells[i].attributes
      ensures k in title.cells[i].attributes ==> a[k] == title.cells[i].attributes[k]
    {
      assert range.Contains(i) ==> k !in es[|ranges|];
      assert Untouched(ranges, extras, i, k);
    }
    forall k, j | LastSets(rs, es, i, k, j)
      ensures k in a && a[k] == es[j][k]
    {
      if j < |ranges| {
        assert !(rs[|ranges|].Contains(i) && k in es[|ranges|]);
        assert LastSets(ranges, extras, i, k, j);
      }
    }
  }

  /** The right-hand side of a map union wins. */
  lemma CarriesUnion(a: Attributes, extra: Attributes)
    ensures forall k :: k in extra ==> k in a + extra && (a + extra)[k] == extra[k]
  {
  }
}

=== FILE: clickable_label.dfy ===
/**
 `ClickableLabel` of ClickableLabel.swift: a label showing a `ClickableText`,
 a registry from character ranges to links, and a press/release/cancel touch
 machine. Where a touch lands is decided by the platform's text layout; a
 touch is represented here by the character index that layout reports for
 it.
 */
module ClickableLabel {
  import opened Optional
  import opened AttributedText
  import opened Clickable

  datatype Label = Label(
    text: Option<AttrString>,
    clickableText: Option<ClickableText>,
    handlers: map<Range, Link>,
    backup: Option<AttrString>,
    interactive: bool)

  /** `init()`: no text, no links, user interaction off (a label's default). */
  function Init(): (l: Label)
    ensures l.text.None? && l.clickableText.None? && l.handlers == map[] && !l.interactive
  {
    Label(None, None, map[], None, false)
  }

  // ---------------------------------------------------------------------
  // Locating a link's string

  ghost predicate OccursAt(hay: string, needle: string, i: int)
  {
    0 <= i && i + |needle| <= |hay| && hay[i..i + |needle|] == needle
  }

  /** The first position at or after `from` where `needle` occurs. */
  function FindFrom(hay: string, needle: string, from: nat): (r: Option<nat>)
    ensures r.Some? ==> from <= r.value && OccursAt(hay, needle, r.value)
    ensures r.Some? ==> forall j :: from <= j < r.value ==> !OccursAt(hay, needle, j)
    ensures r.None? ==> forall j :: from <= j ==> !OccursAt(hay, needle, j)
    decreases |hay| - from
  {
    if from + |needle| > |hay| then None
    else if hay[from..from + |needle|] == needle then Some(from)
    else FindFrom(hay, needle, from + 1)
  }

  /** `NSString.range(of:)`: the range of the first occurrence, or none (the
      platform's `NSNotFound`) when the needle is empty or absent. */
  function RangeOf(hay: string, needle: string): (r: Option<Range>)
    ensures r.Some? <==> needle != "" && exists i :: OccursAt(hay, needle, i)
    ensures r.Some? ==> r.value.length == |needle| && OccursAt(hay, needle, r.value.location)
    ensures r.Some? ==> forall j :: 0 <= j < r.value.location ==> !OccursAt(hay, needle, j)
  {
    if needle == "" then None
    else
      match FindFrom(hay, needle, 0)
      case Some(i) => Some(Range(i, |needle|))
      case None => None
  }

  /** What `setLinkAttributes` needs of a link to run without a platform
      exception: the link has a first character to take attributes from, and
      its string occurs in the text. */
  predicate LinkFits(s: string, link: Link)
  {
    !link.text.IsEmpty() && RangeOf(s, link.text.Plain()).Some?
  }

  predicate AllFit(s: string, links: seq<Link>)
  {
    forall i :: 0 <= i < |links| ==> LinkFits(s, links[i])
  }

  /** The key under which a link is registered: the range of the first
      occurrence of its string. */
  function KeyOf(s: string, link: Link): (r: Range)
    requires LinkFits(s, link)
    ensures r.length == |link.text.Plain()| && r.End() <= |s|
  {
    RangeOf(s, link.text.Plain()).value
  }

  /**
   `setLinkAttributes`: with no text nothing happens. Otherwise the
   attributes of the link's first character are added over the first
   occurrence of the link's string, and the link is registered under that
   range, replacing a link registered there before.
   */
  function SetLinkAttributes(l: Label, link: Link): (r: Label)
    requires l.text.Some? ==> LinkFits(l.text.value.Plain(), link)
    ensures l.text.None? ==> r == l
    ensures l.text.Some? ==>
      var key := KeyOf(l.text.value.Plain(), link);
      && r.text.Some?
      && r.text.value.Plain() == l.text.value.Plain()
      && r.text.value == AddAttributes(l.text.value, key, link.text.cells[0].attributes)
      && r.handlers == l.handlers[key := link]
    ensures r.clickableText == l.clickableText && r.backup == l.backup && r.interactive == l.interactive
  {
    match l.text
    case None => l
    case Some(t) =>
      var key := KeyOf(t.Plain(), link);
      l.(text := Some(AddAttributes(t, key, link.text.cells[0].attributes)), handlers := l.handlers[key := link])
  }

  /** The registry the links of a text produce, later links overwriting
      earlier ones registered under the same range. */
  function Registry(s: string, links: seq<Link>): map<Range, Link>
    requires AllFit(s, links)
    decreases |links|
  {
    if links == [] then map[]
    else Registry(s, links[..|links| - 1])[KeyOf(s, links[|links| - 1]) := links[|links| - 1]]
  }

  /** The ranges the links of `s` are registered under, in link order. */
  function LinkRanges(s: string, links: seq<Link>): (rs: seq<Range>)
    requires AllFit(s, links)
    ensures |rs| == |links|
    ensures forall j :: 0 <= j < |links| ==> rs[j] == KeyOf(s, links[j])
    decreases |links|
  {
    if links == [] then []
    else
      assert AllFit(s, links[..|links| - 1]);
      LinkRanges(s, links[..|links| - 1]) + [KeyOf(s, links[|links| - 1])]
  }

  /** The attributes of each link's first character, in link order. */
  function LinkStyles(s: string, links: seq<Link>): (es: seq<Attributes>)
    requires AllFit(s, links)
    ensures |es| == |links|
    ensures forall j :: 0 <= j < |links| ==> es[j] == links[j].text.cells[0].attributes
    decreases |links|
  {
    if links == [] then []
    else
      assert AllFit(s, links[..|links| - 1]);
      LinkStyles(s, links[..|links| - 1]) + [links[|links| - 1].text.cells[0].attributes]
  }

  /** How `setLinkAttributes`, applied for each of `links` in order, styles
      `title` into `shown`. */
  ghost predicate StyledByLinks(shown: AttrString, title: AttrString, links: seq<Link>)
    requires AllFit(title.Plain(), links)
  {
    Styled(shown, title, LinkRanges(title.Plain(), links), LinkStyles(title.Plain(), links))
  }

  /** `for link in item.links { setLinkAttributes(link) }`, first link first. */
  function ApplyLinks(l: Label, links: seq<Link>): (r: Label)
    requires l.text.Some? && AllFit(l.text.value.Plain(), links)
    ensures r.text.Some? && r.text.value.Plain() == l.text.value.Plain()
    ensures StyledByLinks(r.text.value, l.text.value, links)
    ensures r.handlers == l.handlers + Registry(l.text.value.Plain(), links)
    ensures r.clickableText == l.clickableText && r.backup == l.backup && r.interactive == l.interactive
    decreases |links|
  {
    if links == [] then
      assert l.handlers + map[] == l.handlers;
      l
    else
      var init, last := links[..|links| - 1], links[|links| - 1];
      assert AllFit(l.text.value.Plain(), init);
      var before := ApplyLinks(l, init);
      var after := SetLinkAttributes(before, last);
      UpdateUnion(l.handlers, Registry(l.text.value.Plain(), init), KeyOf(l.text.value.Plain(), last), last);
      StyledByOneMore(l.text.value, links, before.text.value, after.text.value);
      after
  }

  /** Applying the last link after the others keeps `StyledByLinks`. */
  lemma StyledByOneMore(title: AttrString, links: seq<Link>, before: AttrString, after: AttrString)
    requires links != [] && AllFit(title.Plain(), links)
    requires StyledByLinks(before, title, links[..|links| - 1])
    requires after == AddAttributes(before, KeyOf(title.Plain(), links[|links| - 1]), links[|links| - 1].text.cells[0].attributes)
    ensures StyledByLinks(after, title, links)
  {
    var s, init, last := title.Plain(), links[..|links| - 1], links[|links| - 1];
    StyledStep(title, LinkRanges(s, init), LinkStyles(s, init), before, KeyOf(s, last), last.text.cells[0].attributes, after);
  }

  /** Registering into a union is registering into its right-hand side. */
  lemma UpdateUnion<K, V>(m: map<K, V>, n: map<K, V>, k: K, v: V)
    ensures (m + n)[k := v] == m + n[k := v]
  {
  }

  /**
   The registry holds exactly the first-occurrence ranges of the links, and
   under each range the last link registered there.
   */
  lemma RegistryContents(s: string, links: seq<Link>)
    requires AllFit(s, links)
    ensures forall i :: 0 <= i < |links| ==> KeyOf(s, links[i]) in Registry(s, links)
    ensures forall r :: r in Registry(s, links) ==> exists i :: 0 <= i < |links| && KeyOf(s, links[i]) == r
    ensures forall i :: (0 <= i < |links| && (forall j :: i < j < |links| ==> KeyOf(s, links[j]) != KeyOf(s, links[i]))
      ==> Registry(s, links)[KeyOf(s, links[i])] == links[i])
  {
    forall i | 0 <= i < |links| ensures KeyOf(s, links[i]) in Registry(s, links) {
      RegistryHasKey(s, links, i);
    }
    forall r | r in Registry(s, links) ensures exists i :: 0 <= i < |links| && KeyOf(s, links[i]) == r {
      RegistryKeyFromLink(s, links, r);
    }
    forall i | 0 <= i < |links| && (forall j :: i < j < |links| ==> KeyOf(s, links[j]) != KeyOf(s, links[i]))
      ensures Registry(s, links)[KeyOf(s, links[i])] == links[i]
    {
      RegistryLastWins(s, links, i);
    }
  }

  lemma {:induction false} RegistryHasKey(s: string, links: seq<Link>, i: nat)
    requires AllFit(s, links) && i < |links|
    ensures KeyOf(s, links[i]) in Registry(s, links)
    decreases |links|
  {
    var init := links[..|links| - 1];
    assert AllFit(s, init);
    if i < |init| {
      RegistryHasKey(s, init, i);
      assert init[i] == links[i];
    }
  }

  lemma {:induction false} RegistryKeyFromLink(s: string, links: seq<Link>, r: Range)
    requires AllFit(s, links) && r in Registry(s, links)
    ensures exists i :: 0 <= i < |links| && KeyOf(s, links[i]) == r
    decreases |links|
  {
    var init := links[..|links| - 1];
    assert AllFit(s, init);
    if r != KeyOf(s, links[|links| - 1]) {
      RegistryKeyFromLink(s, init, r);
      var i :| 0 <= i < |init| && KeyOf(s, init[i]) == r;
      assert init[i] == links[i];
    }
  }

  lemma {:induction false} RegistryLastWins(s: string, links: seq<Link>, i: nat)
    requires AllFit(s, links) && i < |links|
    requires forall j :: i < j < |links| ==> KeyOf(s, links[j]) != KeyOf(s, links[i])
    ensures KeyOf(s, links[i]) in Registry(s, links) && Registry(s, links)[KeyOf(s, links[i])] == links[i]
    decreases |links|
  {
    var init := links[..|links| - 1];
    assert AllFit(s, init);
    if i < |init| {
      assert init[i] == links[i];
      assert forall j :: i < j < |init| ==> init[j] == links[j];
      RegistryLastWins(s, init, i);
    }
  }

  /** Registering two links with the same string keeps only the second. */
  lemma SameStringLastWins(s: string, first: Link, second: Link)
    requires LinkFits(s, first) && LinkFits(s, second) && first.text.Plain() == second.text.Plain()
    ensures Registry(s, [first, second]) == map[KeyOf(s, second) := second]
  {
    assert KeyOf(s, first) == KeyOf(s, second);
    assert [first, second][..1] == [first];
    assert [first][..0] == [];
    assert Registry(s, [first]) == map[KeyOf(s, first) := first];
  }

  /** A label whose registered ranges all lie within its text, so that
      highlighting a hit range is defined. */
  predicate RangesFit(text: Option<AttrString>, handlers: map<Range, Link>)
  {
    text.Some? ==> forall r :: r in handlers ==> r.End() <= |text.value.cells|
  }

  // ---------------------------------------------------------------------
  // updateAppearance

  /** What a `clickableText` needs for `updateAppearance` to run without a
      platform exception. */
  predicate Displayable(c: Option<ClickableText>)
  {
    c.Some? ==> AllFit(c.value.title.Plain(), c.value.links)
  }

  /**
   `updateAppearance` AS WRITTEN: nothing without a clickable text; otherwise
   interaction is enabled exactly when there are links, the title is shown
   and the links are applied in order. The registry is never cleared, so the
   links of an earlier clickable text stay registered.
   */
  function UpdateAppearanceAsWritten(l: Label): (r: Label)
    requires Displayable(l.clickableText)
    ensures r.clickableText == l.clickableText && r.backup == l.backup
    ensures l.clickableText.None? ==> r == l
    ensures l.clickableText.Some? ==>
      var item := l.clickableText.value;
      && r.text.Some? && r.text.value.Plain() == item.title.Plain()
      && (r.interactive <==> |item.links| > 0)
      && StyledByLinks(r.text.value, item.title, item.links)
      && r.handlers == l.handlers + Registry(item.title.Plain(), item.links)
  {
    match l.clickableText
    case None => l
    case Some(item) =>
      ApplyLinks(l.(interactive := |item.links| > 0, text := Some(item.title)), item.links)
  }

  /**
   `updateAppearance` as evidently intended: the registry is cleared first,
   then the update runs as written, so the registry holds exactly the links
   of the text on display.
   */
  function UpdateAppearance(l: Label): (r: Label)
    requires Displayable(l.clickableText)
    ensures r.clickableText == l.clickableText && r.backup == l.backup
    ensures l.clickableText.None? ==> r == l
    ensures l.clickableText.Some? ==>
      var item := l.clickableText.value;
      && r.text.Some? && r.text.value.Plain() == item.title.Plain()
      && (r.interactive <==> |item.links| > 0)
      && StyledByLinks(r.text.value, item.title, item.links)
      && r.handlers == Registry(item.title.Plain(), item.links)
      && RangesFit(r.text, r.handlers)
  {
    match l.clickableText
    case None => l
    case Some(item) =>
      var registry := Registry(item.title.Plain(), item.links);
      assert map[] + registry == registry;
      RegistryFits(item.title.Plain(), item.links);
      UpdateAppearanceAsWritten(l.(handlers := map[]))
  }

  /** Applying links does not depend on the registry it starts from: the
      shown text is the same, and the registry is the starting one plus the
      links' own. */
  lemma {:induction false} ApplyLinksIgnoresRegistry(l: Label, h: map<Range, Link>, links: seq<Link>)
    requires l.text.Some? && AllFit(l.text.value.Plain(), links)
    ensures ApplyLinks(l.(handlers := h), links) == ApplyLinks(l, links).(handlers := h + Registry(l.text.value.Plain(), links))
    decreases |links|
  {
    if links == [] {
      assert h + map[] == h;
    } else {
      var init := links[..|links| - 1];
      assert AllFit(l.text.value.Plain(), init);
      ApplyLinksIgnoresRegistry(l, h, init);
    }
  }

  lemma {:induction false} RegistryFits(s: string, links: seq<Link>)
    requires AllFit(s, links)
    ensures forall r :: r in Registry(s, links) ==> r.End() <= |s|
    decreases |links|
  {
    if links != [] {
      assert AllFit(s, links[..|links| - 1]);
      RegistryFits(s, links[..|links| - 1]);
    }
  }

  /** The `clickableText` setter as written: it stores the value and runs
      `updateAppearance`, which adds the new links to the registry already
      there. */
  function SetClickableText(l: Label, c: Option<ClickableText>): (r: Label)
    requires Displayable(c)
    ensures r.clickableText == c && r.backup == l.backup
    ensures c.None? ==> r == l.(clickableText := None)
    ensures c.Some? ==>
      && r.text.Some? && r.text.value.Plain() == c.value.title.Plain()
      && StyledByLinks(r.text.value, c.value.title, c.value.links)
      && (r.interactive <==> |c.value.links| > 0)
      && r.handlers == l.handlers + Registry(c.value.title.Plain(), c.value.links)
  {
    UpdateAppearanceAsWritten(l.(clickableText := c))
  }

  /** The setter with the corrected `updateAppearance`: the registry then
      holds exactly the links of the new value, all within its title. */
  function SetClickableTextCorrected(l: Label, c: Option<ClickableText>): (r: Label)
    requires Displayable(c)
    ensures r.clickableText == c && r.backup == l.backup
    ensures c.None? ==> r == l.(clickableText := None)
    ensures c.Some? ==>
      && r.text.Some? && r.text.value.Plain() == c.value.title.Plain()
      && StyledByLinks(r.text.value, c.value.title, c.value.links)
      && (r.interactive <==> |c.value.links| > 0)
      && r.handlers == Registry(c.value.title.Plain(), c.value.links)
      && RangesFit(r.text, r.handlers)
  {
    UpdateAppearance(l.(clickableText := c))
  }

  /** On a label with nothing registered, the setter as written and the
      corrected one agree. */
  lemma SettersAgreeWhenNothingRegistered(l: Label, c: Option<ClickableText>)
    requires Displayable(c) && l.handlers == map[]
    ensures SetClickableText(l, c) == SetClickableTextCorrected(l, c)
  {
    if c.Some? {
      assert map[] + Registry(c.value.title.Plain(), c.value.links) == Registry(c.value.title.Plain(), c.value.links);
    }
  }

  /** `init(item:)`: a fresh label given a clickable text. Nothing was
      registered before, so the registry holds exactly the item's links, all
      within the shown title. */
  function InitWith(item: ClickableText): (l: Label)
    requires Displayable(Some(item))
    ensures l.clickableText == Some(item)
    ensures l.text.Some? && l.text.value.Plain() == item.title.Plain()
    ensures StyledByLinks(l.text.value, item.title, item.links)
    ensures l.handlers == Registry(item.title.Plain(), item.links) && RangesFit(l.text, l.handlers)
    ensures l.interactive <==> |item.links| > 0
  {
    SettersAgreeWhenNothingRegistered(Init(), Some(item));
    SetClickableText(Init(), Some(item))
  }

  /** Showing a clickable text without links, the empty one included, shows
      its title and leaves the label non-interactive. As written, the links
      registered before stay registered; the corrected setter registers
      nothing. */
  lemma ShowingLinklessText(l: Label, title: AttrString)
    ensures var shown := SetClickableText(l, Some(TitleOnly(title)));
      shown.text == Some(title) && shown.handlers == l.handlers && !shown.interactive
    ensures var shown := SetClickableText(l, Some(Empty()));
      shown.text.Some? && shown.text.value.IsEmpty() && shown.handlers == l.handlers && !shown.interactive
    ensures SetClickableTextCorrected(l, Some(TitleOnly(title))).handlers == map[]
  {
    assert l.handlers + map[] == l.handlers;
  }

  /** The first text of the stale-link scenario: "abcd", all of it a link
      (action 1) highlighted in red. */
  function StaleFirst(): ClickableText
  {
    ClickableText(Uniform("abcd", map[]), [Link(Uniform("abcd", map[]), Some("red"), 1)])
  }

  /** The second text: "xy" with a link on "y" (action 2). */
  function StaleSecond(): ClickableText
  {
    ClickableText(Uniform("xy", map[]), [Link(Uniform("y", map[]), None, 2)])
  }

  /** Replacing "abcd" (one link over all of it) with the shorter "xy"
      (a link on "y") keeps the first link registered under the code as
      written: the label is interactive, the stale range holds index 0 and
      reaches past the end of "xy". The corrected setter keeps only "y". */
  lemma StaleLinkSurvivesAsWritten()
    ensures
      var replaced := SetClickableText(SetClickableText(Init(), Some(StaleFirst())), Some(StaleSecond()));
      var corrected := SetClickableTextCorrected(SetClickableTextCorrected(Init(), Some(StaleFirst())), Some(StaleSecond()));
      && replaced.interactive
      && replaced.handlers == map[Range(0, 4) := StaleFirst().links[0], Range(1, 1) := StaleSecond().links[0]]
      && replaced.handlers[Range(0, 4)].action == 1
      && Range(0, 4).Contains(0)
      && !RangesFit(replaced.text, replaced.handlers)
      && corrected.handlers == map[Range(1, 1) := StaleSecond().links[0]]
  {
    var first, second := StaleFirst(), StaleSecond();
    assert first.title.Plain() == "abcd" && first.links[0].text.Plain() == "abcd";
    assert "abcd"[0..4] == "abcd";
    assert FindFrom("abcd", "abcd", 0) == Some(0);
    assert KeyOf("abcd", first.links[0]) == Range(0, 4);
    assert first.links[..0] == [];
    assert second.title.Plain() == "xy" && second.links[0].text.Plain() == "y";
    assert "xy"[0..1] == "x" && "xy"[1..2] == "y";
    assert FindFrom("xy", "y", 1) == Some(1);
    assert FindFrom("xy", "y", 0) == Some(1);
    assert KeyOf("xy", second.links[0]) == Range(1, 1);
    assert second.links[..0] == [];
    var replaced := SetClickableText(SetClickableText(Init(), Some(first)), Some(second));
    assert |replaced.text.value.cells| == 2;
  }

  /** After that replacement, a release at index 0 of the restored "xy" fires
      the first text's action. */
  method StaleReleaseFiresOldAction() returns (fired: Option<ActionId>)
    ensures fired == Some(1)
  {
    var replaced := SetClickableText(SetClickableText(Init(), Some(StaleFirst())), Some(StaleSecond()));
    StaleLinkSurvivesAsWritten();
    fired := ReleaseInStaleRange(replaced.(backup := replaced.text));
  }

  /** A release at index 0 of a label holding the stale registry. */
  method ReleaseInStaleRange(l: Label) returns (fired: Option<ActionId>)
    requires l.backup.Some?
    requires l.handlers == map[Range(0, 4) := StaleFirst().links[0], Range(1, 1) := StaleSecond().links[0]]
    ensures fired == Some(1)
  {
    var touches := [0];
    assert CharacterIndex(l.backup, touches[0]) == 0;
    assert Range(0, 4) in l.handlers && Range(0, 4).Contains(CharacterIndex(l.backup, touches[0]));
    var _, f := TouchesEnded(l, touches);
    if f.None? {
      assert false;
    }
    var k, rr :| 0 <= k < 1 && rr in l.handlers && rr.Contains(CharacterIndex(l.backup, touches[k])) && l.handlers[rr].action == f.value;
    assert rr == Range(0, 4);
    fired := f;
  }

  /** The scenario with uncoloured links: "abcd" with a link on "cd"
      (action 1), then "xy" with a link on "x" (action 2). */
  function QuietFirst(): ClickableText
  {
    ClickableText(Uniform("abcd", map[]), [Link(Uniform("cd", map[]), None, 1)])
  }

  function QuietSecond(): ClickableText
  {
    ClickableText(Uniform("xy", map[]), [Link(Uniform("x", map[]), None, 2)])
  }

  /** As written, the stale range 2..4 of "cd" stays registered over "xy". */
  lemma QuietStaleRegistry()
    ensures
      var replaced := SetClickableText(SetClickableText(Init(), Some(QuietFirst())), Some(QuietSecond()));
      && replaced.text.Some? && |replaced.text.value.cells| == 2
      && replaced.handlers == map[Range(2, 2) := QuietFirst().links[0], Range(0, 1) := QuietSecond().links[0]]
      && !RangesFit(replaced.text, replaced.handlers)
  {
    var first, second := QuietFirst(), QuietSecond();
    assert first.title.Plain() == "abcd" && first.links[0].text.Plain() == "cd";
    assert "abcd"[0..2] == "ab" && "abcd"[1..3] == "bc" && "abcd"[2..4] == "cd";
    assert FindFrom("abcd", "cd", 2) == Some(2);
    assert FindFrom("abcd", "cd", 0) == Some(2);
    assert KeyOf("abcd", first.links[0]) == Range(2, 2);
    assert first.links[..0] == [];
    assert second.title.Plain() == "xy" && second.links[0].text.Plain() == "x";
    assert "xy"[0..1] == "x";
    assert FindFrom("xy", "x", 0) == Some(0);
    assert KeyOf("xy", second.links[0]) == Range(0, 1);
    assert second.links[..0] == [];
  }

  /** On that label, whose registry no longer fits its text, a press at
      index 0 lands only in the range of "x" and is handled: neither link has
      a highlight colour, so nothing is added past the end. */
  method QuietStalePress() returns (press: Press)
    ensures press == Highlighted(Range(0, 1))
  {
    var replaced := SetClickableText(SetClickableText(Init(), Some(QuietFirst())), Some(QuietSecond()));
    QuietStaleRegistry();
    press := PressAtZero(replaced);
  }

  /** A press at index 0 of a two-character label holding the quiet stale
      registry. */
  method PressAtZero(l: Label) returns (press: Press)
    requires l.text.Some? && |l.text.value.cells| == 2
    requires l.handlers == map[Range(2, 2) := QuietFirst().links[0], Range(0, 1) := QuietSecond().links[0]]
    ensures press == Highlighted(Range(0, 1))
  {
    var touches := [0];
    assert Range(0, 1) in l.handlers && Range(0, 1).Contains(touches[0]) && !Range(2, 2).Contains(touches[0]);
    var _, p := TouchesBegan(l, touches);
    press := p;
  }

  // ---------------------------------------------------------------------
  // Locator and touch machine

  /** `characterIndex(point:)`: `-1` without text, otherwise the index the
      platform's layout reports for the point (`laidOut`). */
  function CharacterIndex(text: Option<AttrString>, laidOut: nat): (i: int)
    ensures i == -1 <==> text.None?
    ensures text.Some? ==> i == laidOut
  {
    if text.None? then -1 else laidOut
  }

  /** The index reported for a label without text lies in no range. */
  lemma NoTextHitsNothing(handlers: map<Range, Link>, laidOut: nat)
    ensures forall r :: r in handlers ==> !r.Contains(CharacterIndex(None, laidOut))
  {
  }

  /**
   `attributedTextRange(point:)`: walks the registered ranges in the
   dictionary's (unspecified) order and answers the first that contains the
   index, or none when no registered range does.
   */
  method AttributedTextRange(handlers: map<Range, Link>, index: int) returns (found: Option<Range>)
    ensures found.Some? ==> found.value in handlers && found.value.Contains(index)
    ensures found.None? <==> forall r :: r in handlers ==> !r.Contains(index)
  {
    var keys := handlers.Keys;
    while keys != {}
      invariant keys <= handlers.Keys
      invariant forall r :: r in handlers && r !in keys ==> !r.Contains(index)
      decreases keys
    {
      var r :| r in keys;
      if r.Contains(index) {
        return Some(r);
      }
      keys := keys - {r};
    }
    return None;
  }

  /** No touch of `indices` lands in a registered range. */
  ghost predicate Misses(handlers: map<Range, Link>, indices: seq<int>)
  {
    forall k, r :: 0 <= k < |indices| && r in handlers ==> !r.Contains(indices[k])
  }

  /**
   The platform raises only when the range a press picks has a highlight
   colour and runs past the shown text. A press picks a registered range
   holding the first touch (in the set's order) that lands in any, so the
   ranges that matter are those holding a touch after only misses.
   */
  ghost predicate HighlightFits(text: AttrString, handlers: map<Range, Link>, touchIndices: seq<nat>)
  {
    forall k, r :: 0 <= k < |touchIndices| && r in handlers && r.Contains(touchIndices[k])
      && handlers[r].highlightColor.Some? && Misses(handlers, touchIndices[..k])
      ==> r.End() <= |text.cells|
  }

  /** Every registered range within the text is more than a press needs. */
  lemma FitsAllowEveryPress(text: AttrString, handlers: map<Range, Link>, touchIndices: seq<nat>)
    requires RangesFit(Some(text), handlers)
    ensures HighlightFits(text, handlers, touchIndices)
  {
  }

  /** The outcome of a press. */
  datatype Press = NoText | Highlighted(range: Range) | PassedOn

  /** The text shown while `range` is pressed: the link's highlight colour
      over the range when the link has one, the text unchanged otherwise. */
  function HighlightedText(text: AttrString, range: Range, link: Link): (shown: AttrString)
    requires link.highlightColor.Some? ==> range.End() <= |text.cells|
    ensures shown.Plain() == text.Plain() && |shown.cells| == |text.cells|
    ensures link.highlightColor.None? ==> shown == text
    ensures link.highlightColor.Some? ==>
      forall i :: 0 <= i < |text.cells| ==>
        if range.Contains(i) then shown.cells[i].attributes == text.cells[i].attributes[ForegroundColor := link.highlightColor.value]
        else shown.cells[i] == text.cells[i]
  {
    match link.highlightColor
    case None => text
    case Some(c) => AddAttributes(text, range, map[ForegroundColor := c])
  }

  /**
   `touchesBegan`: without text nothing happens (not even the default
   handling). Otherwise the shown text is saved as the backup; the first
   touch (in the set's order) that lands in a registered range gets that
   range highlighted and the default handling is skipped; when none lands,
   the text stays and the touches go to the default handling.
   */
  method TouchesBegan(l: Label, touchIndices: seq<nat>) returns (r: Label, press: Press)
    requires l.text.Some? ==> HighlightFits(l.text.value, l.handlers, touchIndices)
    ensures l.text.None? <==> press == NoText
    ensures l.text.None? ==> r == l
    ensures l.text.Some? ==> r.backup == l.text
    ensures r.handlers == l.handlers && r.clickableText == l.clickableText && r.interactive == l.interactive
    ensures press.Highlighted? ==>
      && press.range in l.handlers
      && (exists k :: 0 <= k < |touchIndices| && press.range.Contains(touchIndices[k]) && Misses(l.handlers, touchIndices[..k]))
      && r.text == Some(HighlightedText(l.text.value, press.range, l.handlers[press.range]))
    ensures press.PassedOn? ==> r.text == l.text && Misses(l.handlers, touchIndices)
    ensures RangesFit(r.text, r.handlers) <==> RangesFit(l.text, l.handlers)
  {
    if l.text.None? {
      return l, NoText;
    }
    var text := l.text.value;
    r := l.(backup := l.text);
    var k := 0;
    while k < |touchIndices|
      invariant 0 <= k <= |touchIndices|
      invariant forall j, rr :: 0 <= j < k && rr in l.handlers ==> !rr.Contains(touchIndices[j])
    {
      var hit := AttributedTextRange(l.handlers, touchIndices[k]);
      if hit.Some? {
        var range := hit.value;
        assert Misses(l.handlers, touchIndices[..k]);
        var shown := HighlightedText(text, range, l.handlers[range]);
        return r.(text := Some(shown)), Highlighted(range);
      }
      k := k + 1;
    }
    return r, PassedOn;
  }

  /**
   `touchesEnded`: the backup is shown again, then the first touch (in the
   set's order) that lands in a registered range of the restored text fires
   that range's action, and only that one; when none lands, the touches go
   to the default handling. Where the touch went down plays no part.
   */
  method TouchesEnded(l: Label, touchIndices: seq<nat>) returns (r: Label, fired: Option<ActionId>)
    ensures r == l.(text := l.backup)
    ensures fired.Some? ==> exists k, rr ::
      && 0 <= k < |touchIndices| && rr in l.handlers
      && rr.Contains(CharacterIndex(l.backup, touchIndices[k]))
      && l.handlers[rr].action == fired.value
    ensures fired.None? ==> forall k, rr :: 0 <= k < |touchIndices| && rr in l.handlers ==>
      !rr.Contains(CharacterIndex(l.backup, touchIndices[k]))
  {
    r := l.(text := l.backup);
    var k := 0;
    while k < |touchIndices|
      invariant 0 <= k <= |touchIndices|
      invariant forall j, rr :: 0 <= j < k && rr in l.handlers ==> !rr.Contains(CharacterIndex(l.backup, touchIndices[j]))
    {
      var hit := AttributedTextRange(l.handlers, CharacterIndex(r.text, touchIndices[k]));
      if hit.Some? {
        return r, Some(l.handlers[hit.value].action);
      }
      k := k + 1;
    }
    return r, None;
  }

  /** `touchesCancelled`: the backup is shown again and no action fires. */
  function TouchesCancelled(l: Label): (r: Label)
    ensures r.text == l.backup
    ensures r.handlers == l.handlers && r.backup == l.backup && r.clickableText == l.clickableText
    ensures r.interactive == l.interactive
  {
    l.(text := l.backup)
  }

  /**
   A full gesture, press then release: the label ends showing exactly what it
   showed before the press, and at most one action fires, the one of a range
   holding the release position.
   */
  method Tap(l: Label, pressIndices: seq<nat>, releaseIndices: seq<nat>) returns (r: Label, fired: Option<ActionId>)
    requires l.text.Some? && HighlightFits(l.text.value, l.handlers, pressIndices)
    ensures r.text == l.text && r.handlers == l.handlers
    ensures fired.Some? ==> exists k, rr ::
      0 <= k < |releaseIndices| && rr in l.handlers && rr.Contains(releaseIndices[k]) && l.handlers[rr].action == fired.value
    ensures fired.None? ==> Misses(l.handlers, releaseIndices)
  {
    var pressed, _ := TouchesBegan(l, pressIndices);
    r, fired := TouchesEnded(pressed, releaseIndices);
  }

  /** A press followed by a cancel shows exactly the pre-press text again. */
  method PressThenCancel(l: Label, pressIndices: seq<nat>) returns (r: Label)
    requires l.text.Some? && HighlightFits(l.text.value, l.handlers, pressIndices)
    ensures r.text == l.text && r.handlers == l.handlers
  {
    var pressed, _ := TouchesBegan(l, pressIndices);
    r := TouchesCancelled(pressed);
  }
}

=== FILE: clickable_text.dfy ===
/** The value types of ClickableText.swift. */
module Clickable {
  import opened Optional
  import opened AttributedText

  /** A link's action is a closure in the source; here it is known by an
      identity, which is what "this action fired" needs. */
  type ActionId = nat

  /** A tappable fragment: its styled text (which must occur in the title),
      the optional colour shown while it is pressed, and its action. */
  datatype Link = Link(text: AttrString, highlightColor: Option<string>, action: ActionId)

  /** A title and its links, in order. */
  datatype ClickableText = ClickableText(title: AttrString, links: seq<Link>)

  /** `ClickableText.empty`: an empty title without links. */
  function Empty(): (c: ClickableText)
    ensures c.title.Plain() == "" && c.title.IsEmpty() && c.links == []
  {
    ClickableText(Uniform("", map[]), [])
  }

  /** `init(title:links:)` with `links` left at its default. */
  function TitleOnly(title: AttrString): (c: ClickableText)
    ensures c.title == title && c.links == []
  {
    ClickableText(title, [])
  }
}

=== FILE: field_glue.dfy ===
/**
 The editing glue of MaterialTextView+Extensions.swift: how the view feeds
 what happens in its embedded input component into the view-model. The
 view-model is the record of the `ViewModel` module; the view adds the
 `shouldUpdate` re-entrancy flag and the `hadInput` flag. The view-model's
 optional `didBeginEditing`/`didEndEditing` hooks and the view's delegate are
 logged like the view-model's observers: a nil hook or delegate drops its
 entry.
 */
module FieldGlue {
  import opened Optional
  import VM = ViewModel

  datatype Field = Field(model: VM.State, shouldUpdate: bool, hadInput: bool)

  datatype Signal =
    | Model(event: VM.Event)
    | ModelDidBeginEditing
    | ModelDidEndEditing
    | DelegateDidChange
    | DelegateDidBeginEditing
    | DelegateDidEndEditing

  datatype Reaction = Reaction(field: Field, signals: seq<Signal>)

  /** The view-model's notifications as signals of the field. */
  function Lift(ev: seq<VM.Event>): (r: seq<Signal>)
    ensures |r| == |ev|
    ensures forall i :: 0 <= i < |ev| ==> r[i] == Model(ev[i])
  {
    seq(|ev|, i requires 0 <= i < |ev| => Model(ev[i]))
  }

  /**
   `textComponentDidChange()`: when updates are enabled and the component's
   text differs from the model's, the text is written through the model's
   `text` setter with updates disabled for the duration, the delegate hears
   `didChange` once, and updates are enabled again. Otherwise nothing happens.
   */
  function TextComponentDidChange(f: Field, inputText: string): (r: Reaction)
    ensures f.shouldUpdate ==> r.field.model.text == inputText && r.field.shouldUpdate
    ensures !(f.shouldUpdate && f.model.text != inputText) ==> r == Reaction(f, [])
    ensures f.shouldUpdate && f.model.text != inputText ==>
      && r.field == Field(VM.SetText(f.model, inputText).state, true, f.hadInput)
      && r.signals == Lift(VM.SetText(f.model, inputText).events) + [DelegateDidChange]
    ensures r.field.hadInput == f.hadInput
    ensures forall i :: 0 <= i < |r.signals| - 1 ==> r.signals[i] != DelegateDidChange
  {
    if f.shouldUpdate && f.model.text != inputText then
      var muted := f.(shouldUpdate := false);
      var step := VM.SetText(muted.model, inputText);
      Reaction(muted.(model := step.state, shouldUpdate := true), Lift(step.events) + [DelegateDidChange])
    else
      Reaction(f, [])
  }

  /**
   `textComponent(shouldChangeCharactersIn:replacementText:)`: a veto chain.
   The delegate is asked first (`delegateAnswer`, None when there is no
   delegate); a refusal ends the question. Then the view-model's
   `shouldChangeText` hook is asked (`hookAnswer`, None when there is no
   hook), and its answer stands; with no hook the change is allowed. The
   range and replacement text are passed through to both and so are
   represented only by the answers.
   */
  function ShouldChangeText(delegateAnswer: Option<bool>, hookAnswer: Option<bool>): (allowed: bool)
    ensures allowed <==> delegateAnswer != Some(false) && hookAnswer != Some(false)
  {
    if delegateAnswer == Some(false) then false
    else
      match hookAnswer
      case Some(answer) => answer
      case None => true
  }

  /** A delegate's refusal is final, whatever the hook would have said. */
  lemma DelegateVetoIsFinal(hookAnswer: Option<bool>)
    ensures !ShouldChangeText(Some(false), hookAnswer)
  {
  }

  /** `textComponentDidBeginEditing()`: records that the user has interacted
      with the field and makes the model active. */
  function DidBeginEditing(f: Field): (r: Reaction)
    ensures r.field.hadInput && r.field.model.isActive
    ensures r.field == f.(hadInput := true, model := f.model.(isActive := true))
    ensures r.signals == Lift(VM.Notify(VM.StateChanged(true, f.model.errorState)))
      + [ModelDidBeginEditing, DelegateDidBeginEditing]
  {
    var step := VM.SetIsActive(f.model, true);
    Reaction(f.(hadInput := true, model := step.state), Lift(step.events) + [ModelDidBeginEditing, DelegateDidBeginEditing])
  }

  /** `textComponentDidEndEditing()`: makes the model inactive; `hadInput` is
      left as it is. */
  function DidEndEditing(f: Field): (r: Reaction)
    ensures !r.field.model.isActive && r.field.hadInput == f.hadInput
    ensures r.field == f.(model := f.model.(isActive := false))
    ensures r.signals == Lift(VM.Notify(VM.StateChanged(false, f.model.errorState)))
      + [ModelDidEndEditing, DelegateDidEndEditing]
  {
    var step := VM.SetIsActive(f.model, false);
    Reaction(f.(model := step.state), Lift(step.events) + [ModelDidEndEditing, DelegateDidEndEditing])
  }

  /** What the embedded input component reports to the view. */
  datatype Input = DidChange(text: string) | BeginEditing | EndEditing

  function React(f: Field, input: Input): Reaction
  {
    match input
    case DidChange(t) => TextComponentDidChange(f, t)
    case BeginEditing => DidBeginEditing(f)
    case EndEditing => DidEndEditing(f)
  }

  /** The field after a run of component callbacks. */
  function Run(f: Field, inputs: seq<Input>): Field
    decreases |inputs|
  {
    if inputs == [] then f else Run(React(f, inputs[0]).field, inputs[1..])
  }

  /**
   Over any run of callbacks `shouldUpdate` keeps its value, and `hadInput`
   ends true exactly when it started true or the run began an edit: once the
   user has interacted, transitions are animated for good.
   */
  lemma {:induction false} RunFlags(f: Field, inputs: seq<Input>)
    ensures Run(f, inputs).shouldUpdate == f.shouldUpdate
    ensures Run(f, inputs).hadInput <==> f.hadInput || BeginEditing in inputs
    decreases |inputs|
  {
    if inputs != [] {
      RunFlags(React(f, inputs[0]).field, inputs[1..]);
      assert inputs == [inputs[0]] + inputs[1..];
    }
  }

  /** While updates are enabled, the model's text follows the component's
      text: after a run ending with a did-change, they agree. */
  lemma RunEndsMirroringText(f: Field, inputs: seq<Input>, last: string)
    requires f.shouldUpdate
    ensures Run(f, inputs + [DidChange(last)]).model.text == last
  {
    RunFlags(f, inputs);
    RunSplit(f, inputs, [DidChange(last)]);
  }

  lemma {:induction false} RunSplit(f: Field, a: seq<Input>, b: seq<Input>)
    ensures Run(f, a + b) == Run(Run(f, a), b)
    decreases |a|
  {
    if a == [] {
      assert a + b == b;
    } else {
      assert (a + b)[1..] == a[1..] + b;
      RunSplit(React(f, a[0]).field, a[1..], b);
    }
  }
}

=== FILE: field_view.dfy ===
/**
 The decision logic of MaterialTextView.swift and the view's `validate()`.
 The view reads a later revision of the view-model than the one in the
 `ViewModel` module: three error states (with a link error), three
 placeholder types (with a title that always stays on top), a component
 mode, a line limit, a paragraph style and an optional trailing button.
 `Model` is that record, restricted to the fields the view reads. Layout,
 animation execution and text measurement are the platform's; here they are
 inputs (the measured height, the component's first-responder status) or
 outputs (which labels are visible, which constraint is active, how long an
 animation lasts).
 */
module FieldView {
  import opened Optional
  import opened AttributedText
  import opened StringExtensions

  /** The payload of `.invalid` read by the view: message, optional link. */
  datatype ValidationInfo = ValidationInfo(text: string, linkText: Option<string>, urlString: Option<string>)

  datatype ValidatorResult = Valid | Invalid(info: ValidationInfo)

  datatype ErrorState =
    | Normal
    | Error(text: string)
    | LinkError(text: string, linkText: Option<string>, urlString: Option<string>)
  {
    /** Both error cases count as an error for validation. */
    predicate IsError()
    {
      !Normal?
    }
  }

  datatype PlaceholderType = NormalPlaceholder | AnimatedPlaceholder | AlwaysOnTop

  datatype TextComponentMode = TextField | TextView

  datatype ButtonInfo = ButtonInfo(image: string)

  datatype Model = Model(
    text: string,
    help: string,
    errorState: ErrorState,
    isActive: bool,
    placeholderType: PlaceholderType,
    placeholderText: string,
    wasActionValid: bool,
    actionValidator: string -> ValidatorResult,
    mode: TextComponentMode,
    maxLinesWithoutScrolling: real,
    paragraph: Option<ParagraphStyle>,
    rightButtonInfo: Option<ButtonInfo>)

  // ---------------------------------------------------------------------
  // validate()

  /** `validate(validator:)` of the view: a refusal carrying a link or a URL
      becomes a link error, any other refusal a plain error. */
  function Outcome(result: ValidatorResult): (e: ErrorState)
    ensures e.IsError() <==> result.Invalid?
    ensures result.Invalid? ==> e.text == result.info.text
  {
    match result
    case Valid => Normal
    case Invalid(info) =>
      if info.linkText.Some? || info.urlString.Some? then LinkError(info.text, info.linkText, info.urlString)
      else Error(info.text)
  }

  /** The mapping loses nothing: a verdict is an error exactly when it is a
      refusal, the message is kept, and a link error appears exactly when
      the refusal names a link or a URL, which it carries along. */
  lemma OutcomeFaithful(result: ValidatorResult)
    ensures Outcome(result).IsError() <==> result.Invalid?
    ensures result.Invalid? ==> Outcome(result).text == result.info.text
    ensures Outcome(result).LinkError? <==>
      result.Invalid? && (result.info.linkText.Some? || result.info.urlString.Some?)
    ensures Outcome(result).LinkError? ==>
      Outcome(result).linkText == result.info.linkText && Outcome(result).urlString == result.info.urlString
  {
  }

  datatype Validated = Validated(model: Model, valid: bool)

  /**
   `validate()`: the action validator judges the current text, the verdict
   becomes the error state, `wasActionValid` records whether it is free of
   error, and that flag is returned. Nothing else in the record changes.
   */
  function Validate(m: Model): (r: Validated)
    ensures r.valid <==> m.actionValidator(m.text).Valid?
    ensures r.model.errorState == Outcome(m.actionValidator(m.text))
    ensures r.model.wasActionValid == r.valid
    ensures r.model == m.(errorState := r.model.errorState, wasActionValid := r.valid)
  {
    var judged := m.(errorState := Outcome(m.actionValidator(m.text)));
    var checked := judged.(wasActionValid := !judged.errorState.IsError());
    OutcomeFaithful(m.actionValidator(m.text));
    Validated(checked, checked.wasActionValid)
  }

  // ---------------------------------------------------------------------
  // changeTextStates

  /** In `changeTextStates` only a plain `.error` counts as an error: a link
      error falls into the `default` branch. */
  predicate ShowsError(e: ErrorState)
  {
    match e
    case Error(_) => true
    case _ => false
  }

  /** The text shown under the line: the message of a plain error, otherwise
      the help text. */
  function HelpText(m: Model): (t: string)
    ensures !m.errorState.IsError() ==> t == m.help
    ensures t == m.help || (m.errorState.IsError() && t == m.errorState.text)
  {
    match m.errorState
    case Error(message) => message
    case _ => m.help
  }

  lemma HelpTextFollowsError(m: Model)
    ensures ShowsError(m.errorState) ==> HelpText(m) == m.errorState.text
    ensures !ShowsError(m.errorState) ==> HelpText(m) == m.help
  {
  }

  /** A link error renders like no error at all: the help text is shown and
      the title takes a normal style, although the error state is an error. */
  lemma LinkErrorRendersAsNormal(m: Model)
    requires m.errorState.LinkError?
    ensures m.errorState.IsError() && !ShowsError(m.errorState)
    ensures HelpText(m) == m.help
    ensures !TitleSlot(m.isActive, ShowsError(m.errorState)).Erroneous()
  {
  }

  /** The four visual states of a style. */
  datatype Slot = NormalActive | NormalInactive | ErrorActive | ErrorInactive {
    predicate Active()
    {
      this == NormalActive || this == ErrorActive
    }
    predicate Erroneous()
    {
      this == ErrorActive || this == ErrorInactive
    }
  }

  /** The visual state whose title attributes the title label takes. */
  function TitleSlot(isActive: bool, isError: bool): (s: Slot)
    ensures s.Active() == isActive && s.Erroneous() == isError
  {
    if isActive then (if isError then ErrorActive else NormalActive)
    else (if isError then ErrorInactive else NormalInactive)
  }

  /** Each visual state is chosen by exactly one (active, error) pair. */
  lemma TitleSlotInjective(a1: bool, e1: bool, a2: bool, e2: bool)
    ensures TitleSlot(a1, e1) == TitleSlot(a2, e2) <==> a1 == a2 && e1 == e2
  {
  }

  /** The affine transform of a label: none, the placeholder shrunk onto the
      title's frame, or the title grown onto the placeholder's frame. */
  datatype Transform = Identity | PlaceholderOnTitle | TitleOnPlaceholder

  /** The final look of the title and the placeholder once the transition
      has run: visibility (alpha 1 or 0) and transform. */
  datatype Labels = Labels(titleVisible: bool, placeholderVisible: bool,
                           titleTransform: Transform, placeholderTransform: Transform)

  /**
   The title/placeholder choreography of `changeTextStates`. `textEmpty` is
   the model's text, `formattedEmpty` the component's formatted text,
   `placeholderTransform` the placeholder's transform before the change, and
   `titleHasWidth` whether the title label has been laid out with a positive
   width.
   */
  function LabelsAfter(kind: PlaceholderType, isActive: bool, textEmpty: bool, formattedEmpty: bool,
                       placeholderTransform: Transform, titleHasWidth: bool): (l: Labels)
    ensures kind == AlwaysOnTop ==> l == Labels(true, false, Identity, Identity)
    ensures kind != AlwaysOnTop ==>
      (l.placeholderVisible <==> formattedEmpty && textEmpty && (!isActive || kind == NormalPlaceholder))
    ensures kind != AlwaysOnTop ==>
      (l.titleVisible <==> kind == AnimatedPlaceholder && (isActive || !formattedEmpty || !textEmpty))
    ensures kind != AlwaysOnTop ==>
      (l.titleTransform != Identity <==> kind == AnimatedPlaceholder && !isActive && formattedEmpty && textEmpty && titleHasWidth)
    ensures kind == AnimatedPlaceholder && !isActive && formattedEmpty && textEmpty && titleHasWidth ==>
      l.titleTransform == TitleOnPlaceholder && l.placeholderTransform == Identity
    ensures kind == AnimatedPlaceholder && isActive ==>
      l.placeholderTransform == (if placeholderTransform == Identity then PlaceholderOnTitle else placeholderTransform)
    ensures kind != AlwaysOnTop && !(kind == AnimatedPlaceholder && (isActive || (formattedEmpty && textEmpty && titleHasWidth))) ==>
      l.placeholderTransform == placeholderTransform
    ensures l.placeholderTransform != placeholderTransform ==> kind != NormalPlaceholder
  {
    var empty := formattedEmpty && textEmpty;
    match kind
    case AlwaysOnTop => Labels(true, false, Identity, Identity)
    case _ =>
      if isActive then
        Labels(kind == AnimatedPlaceholder,
               kind == NormalPlaceholder && empty,
               Identity,
               if kind == AnimatedPlaceholder && placeholderTransform == Identity then PlaceholderOnTitle
               else placeholderTransform)
      else if kind == AnimatedPlaceholder && empty && titleHasWidth then
        Labels(false, true, TitleOnPlaceholder, Identity)
      else
        Labels(kind == AnimatedPlaceholder && !empty, empty, Identity, placeholderTransform)
  }

  /** The title and the placeholder are never shown together. */
  lemma LabelsExclusive(kind: PlaceholderType, isActive: bool, textEmpty: bool, formattedEmpty: bool,
                        placeholderTransform: Transform, titleHasWidth: bool)
    ensures var l := LabelsAfter(kind, isActive, textEmpty, formattedEmpty, placeholderTransform, titleHasWidth);
      !(l.titleVisible && l.placeholderVisible)
  {
  }

  /** A plain placeholder is a classic one: shown exactly while there is no
      text, whether or not the field is active, and the title never shows. */
  lemma NormalPlaceholderIgnoresFocus(textEmpty: bool, formattedEmpty: bool,
                                      placeholderTransform: Transform, titleHasWidth: bool)
    ensures forall active: bool ::
      var l := LabelsAfter(NormalPlaceholder, active, textEmpty, formattedEmpty, placeholderTransform, titleHasWidth);
      (l.placeholderVisible <==> textEmpty && formattedEmpty) && !l.titleVisible
  {
  }

  /** The duration given to the placeholder transition: none for a plain
      placeholder, and none before the user's first interaction, so that the
      field does not animate when it first appears. */
  function PlaceholderAnimationDuration(kind: PlaceholderType, hadInput: bool, configured: real): (d: real)
    ensures kind == NormalPlaceholder || !hadInput ==> d == 0.0
    ensures kind != NormalPlaceholder && hadInput ==> d == configured
  {
    var duration := if kind == NormalPlaceholder then 0.0 else configured;
    if hadInput then duration else 0.0
  }

  /** The line style is applied inside an animation of the configured line
      duration once the user has interacted, and directly before that. */
  function LineAnimation(hadInput: bool, lineDuration: real): (a: Option<real>)
    ensures a.Some? <==> hadInput
    ensures a.Some? ==> a.value == lineDuration
  {
    if hadInput then Some(lineDuration) else None
  }

  /** The durations a view starts with. */
  const DefaultPlaceholderAnimationDuration: real := 0.15
  const DefaultLineAnimationDuration: real := 0.1

  datatype Render = Render(
    helpText: string,
    titleSlot: Slot,
    titleText: string,
    labels: Labels,
    placeholderDuration: real,
    lineAnimation: Option<real>)

  /** `changeTextStates`: everything the view derives from the model on a
      state change. */
  function ChangeTextStates(m: Model, formattedText: string, hadInput: bool,
                            placeholderDuration: real, lineDuration: real,
                            placeholderTransform: Transform, titleHasWidth: bool): (r: Render)
    ensures r.helpText == HelpText(m)
    ensures r.titleSlot.Active() == m.isActive && r.titleSlot.Erroneous() == ShowsError(m.errorState)
    ensures r.titleText == m.placeholderText
    ensures r.labels == LabelsAfter(m.placeholderType, m.isActive, m.text == "", formattedText == "",
                                    placeholderTransform, titleHasWidth)
    ensures !hadInput ==> r.placeholderDuration == 0.0 && r.lineAnimation.None?
    ensures r.placeholderDuration == PlaceholderAnimationDuration(m.placeholderType, hadInput, placeholderDuration)
    ensures r.lineAnimation == LineAnimation(hadInput, lineDuration)
  {
    Render(HelpText(m),
           TitleSlot(m.isActive, ShowsError(m.errorState)),
           m.placeholderText,
           LabelsAfter(m.placeholderType, m.isActive, m.text == "", formattedText == "",
                       placeholderTransform, titleHasWidth),
           PlaceholderAnimationDuration(m.placeholderType, hadInput, placeholderDuration),
           LineAnimation(hadInput, lineDuration))
  }

  /** With the durations a view starts with, a state change after the first
      input moves a placeholder other than the plain one in 0.15 s and
      restyles the line in 0.1 s. */
  lemma DefaultDurationsAfterInput(m: Model, formattedText: string, placeholderTransform: Transform, titleHasWidth: bool)
    ensures var r := ChangeTextStates(m, formattedText, true, DefaultPlaceholderAnimationDuration,
                                      DefaultLineAnimationDuration, placeholderTransform, titleHasWidth);
      && r.placeholderDuration == (if m.placeholderType == NormalPlaceholder then 0.0 else 0.15)
      && r.lineAnimation == Some(0.1)
  {
  }

  // ---------------------------------------------------------------------
  // stateChanged: first-responder synchronisation

  datatype FocusRequest = BecomeFirstResponder | ResignFirstResponder | KeepFocus

  /** The focus request `stateChanged` issues so that the component's focus
      follows the model's `isActive`. */
  function FocusAfterStateChange(isActive: bool, isFirstResponder: bool): (q: FocusRequest)
    ensures q == BecomeFirstResponder <==> isActive && !isFirstResponder
    ensures q == ResignFirstResponder <==> !isActive && isFirstResponder
  {
    if isActive && !isFirstResponder then BecomeFirstResponder
    else if !isActive && isFirstResponder then ResignFirstResponder
    else KeepFocus
  }

  /** The component's focus after a request that the platform grants. */
  function ApplyFocus(isFirstResponder: bool, q: FocusRequest): bool
  {
    match q
    case BecomeFirstResponder => true
    case ResignFirstResponder => false
    case KeepFocus => isFirstResponder
  }

  /** After `stateChanged`, the component is focused exactly when the model
      is active. */
  lemma FocusFollowsIsActive(isActive: bool, isFirstResponder: bool)
    ensures ApplyFocus(isFirstResponder, FocusAfterStateChange(isActive, isFirstResponder)) == isActive
  {
  }

  // ---------------------------------------------------------------------
  // rightButtonChanged

  /** The trailing edge of the input: the button's visibility and the two
      alternative constraints (input to the view's edge, input to the button). */
  datatype Trailing = Trailing(buttonHidden: bool, toRightActive: bool, toButtonActive: bool)

  function ShowRightButton(t: Trailing): (r: Trailing)
    ensures !r.buttonHidden && r.toButtonActive && !r.toRightActive
  {
    t.(buttonHidden := false, toRightActive := false, toButtonActive := true)
  }

  function HideRightButton(t: Trailing): (r: Trailing)
    ensures r.buttonHidden && r.toRightActive && !r.toButtonActive
  {
    t.(buttonHidden := true, toButtonActive := false, toRightActive := true)
  }

  /** `rightButtonChanged`: the button shows exactly when the model has
      button info, and exactly one trailing constraint is active, whatever
      the previous layout. The button's image is not modelled. */
  function RightButtonChanged(info: Option<ButtonInfo>, t: Trailing): (r: Trailing)
    ensures r.buttonHidden <==> info.None?
    ensures r.toButtonActive <==> info.Some?
    ensures r.toRightActive != r.toButtonActive
  {
    match info
    case Some(_) => ShowRightButton(t)
    case None => HideRightButton(t)
  }

  // ---------------------------------------------------------------------
  // updateTextViewHeight / getAttributedText

  /**
   The height given to the input. A text field is one line plus one point.
   A text view takes the measured height of its text, capped at
   `maxLines` lines less a sixth of a line, and never less than one line.
   */
  function TextViewHeight(mode: TextComponentMode, lineHeight: real, measured: real, maxLines: real): (h: real)
    ensures mode == TextField ==> h == lineHeight + 1.0
    ensures mode == TextView ==> h >= lineHeight
    ensures mode == TextView ==> h == lineHeight || h == measured || h == lineHeight * maxLines - lineHeight / 6.0
    ensures mode == TextView && lineHeight <= measured <= lineHeight * maxLines - lineHeight / 6.0 ==> h == measured
    ensures mode == TextView && measured <= lineHeight ==> h == lineHeight
    ensures mode == TextView && measured >= lineHeight * maxLines - lineHeight / 6.0 >= lineHeight ==>
      h == lineHeight * maxLines - lineHeight / 6.0
    ensures mode == TextView && lineHeight * maxLines - lineHeight / 6.0 < lineHeight ==> h == lineHeight
  {
    match mode
    case TextField => lineHeight + 1.0
    case TextView =>
      var cap := lineHeight * maxLines - lineHeight / 6.0;
      var capped := if measured <= cap then measured else cap;
      if capped >= lineHeight then capped else lineHeight
  }

  /** `updateTextViewHeight`: the line height comes from the paragraph style
      of the text attributes, or from the default style (16 + 4). */
  function UpdateTextViewHeight(m: Model, measured: real): (h: real)
    ensures m.paragraph.None? && m.mode == TextField ==> h == 21.0
    ensures m.paragraph.None? && m.mode == TextView ==> h >= 20.0
    ensures m.paragraph.None? ==> h == TextViewHeight(m.mode, 20.0, measured, m.maxLinesWithoutScrolling)
    ensures m.paragraph.Some? ==>
      h == TextViewHeight(m.mode, m.paragraph.value.minimumLineHeight + m.paragraph.value.lineSpacing,
                          measured, m.maxLinesWithoutScrolling)
  {
    TextViewHeight(m.mode, LineHeightOf(m.paragraph), measured, m.maxLinesWithoutScrolling)
  }

  /**
   `getAttributedText`: the text that is measured. Without a current format
   the component's own text is used (its attributed form), with one the
   model's text in the style's attributes; an empty text is measured as a
   single space so that the field keeps one line. The component's attributed
   text spells its plain text, as both platform components guarantee.
   */
  function GetAttributedText(currentFormat: Option<string>, inputText: string, inputAttributedText: AttrString,
                             modelText: string, textAttributes: Attributes): (a: AttrString)
    requires inputAttributedText.Plain() == inputText
    ensures a.Plain() == NonEmpty(if currentFormat.None? then inputText else modelText)
    ensures currentFormat.Some? ==> a == Uniform(NonEmpty(modelText), textAttributes)
    ensures currentFormat.None? && inputText != "" ==> a == inputAttributedText
    ensures (if currentFormat.None? then inputText else modelText) == "" ==> a == Uniform(" ", textAttributes)
  {
    var text := if currentFormat.None? then inputText else modelText;
    if text == "" then Uniform(" ", textAttributes)
    else if currentFormat.None? then inputAttributedText
    else Uniform(text, textAttributes)
  }
}

=== FILE: font_name.dfy ===
/** `UIFont.getFontName()` from UIFont+Extensions.swift. */
module FontName {

  /**
   From iOS 13 the system fonts report names with a leading dot (".SFUI…");
   the helper drops that one dot so the name can be used to look the font up
   again. Below iOS 13 the name is returned as it is. The OS check is the
   parameter `atLeastIOS13`.
   */
  function GetFontName(fontName: string, atLeastIOS13: bool): (r: string)
    ensures atLeastIOS13 && |fontName| > 0 && fontName[0] == '.' ==> fontName == "." + r
    ensures !(atLeastIOS13 && |fontName| > 0 && fontName[0] == '.') ==> r == fontName
  {
    if atLeastIOS13 && |fontName| > 0 && fontName[0] == '.' then fontName[1..] else fontName
  }

  /** Only one character is ever removed, and only from the front. */
  lemma GetFontNameIsSuffix(fontName: string, atLeastIOS13: bool)
    ensures var r := GetFontName(fontName, atLeastIOS13);
      (|r| == |fontName| || |r| == |fontName| - 1) && r == fontName[|fontName| - |r|..]
  {
  }

  /** A name that keeps a leading dot after stripping ("..x") loses only the
      first of its dots. */
  lemma GetFontNameStripsOneDot(fontName: string)
    requires |fontName| >= 2 && fontName[0] == '.' && fontName[1] == '.'
    ensures GetFontName(fontName, true) == fontName[1..]
    ensures GetFontName(fontName, true)[0] == '.'
  {
  }
}

=== FILE: optional.dfy ===
/** The optional value used wherever the Swift source uses `Optional` (`T?`). */
module Optional {

  datatype Option<+T> = None | Some(value: T) {

    /** The wrapped value, or `default` when there is none (Swift's `??`). */
    function GetOr(default: T): T
    {
      match this
      case Some(v) => v
      case None => default
    }
  }
}

=== FILE: string_extensions.dfy ===
/** The helpers of NSAttributedString+Extensions.swift. */
module StringExtensions {
  import opened Optional
  import opened AttributedText

  /** `String.nonEmpty`: a single space stands in for the empty string, so
      that a label built from it keeps the height of one line. */
  function NonEmpty(s: string): (r: string)
    ensures |r| > 0
    ensures s != "" ==> r == s
    ensures s == "" ==> r == " "
  {
    if |s| == 0 then " " else s
  }

  /** `Optional<String>.nonEmpty`: nil is treated like the empty string. */
  function NonEmptyOptional(o: Option<string>): (r: string)
    ensures |r| > 0
    ensures r == NonEmpty(o.GetOr(""))
  {
    match o
    case None => " "
    case Some(v) => NonEmpty(v)
  }

  /** Applying `nonEmpty` twice is the same as applying it once. */
  lemma NonEmptyIdempotent(s: string)
    ensures NonEmpty(NonEmpty(s)) == NonEmpty(s)
  {
  }

  /** `nonEmpty` changes exactly the empty string. */
  lemma NonEmptyFixedPoints(s: string)
    ensures NonEmpty(s) == s <==> s != ""
  {
  }

  /**
   `safeAttributes(at:range:)`: the empty string has no characters to ask, so
   it yields the empty dictionary for any index, negative ones included;
   otherwise the attributes of the character at `at` (the platform raises for
   an index outside the string, hence the requires). The effective-range
   out-parameter is not modelled.
   */
  function SafeAttributes(a: AttrString, at: int): (r: Attributes)
    requires a.IsEmpty() || 0 <= at < |a.cells|
    ensures a.IsEmpty() ==> r == map[]
    ensures !a.IsEmpty() ==> r == a.cells[at].attributes
  {
    if a.IsEmpty() then map[] else a.cells[at].attributes
  }

  /** On a string built with uniform attributes, every character answers
      those attributes, and the empty string answers none at any index. */
  lemma SafeAttributesOfUniform(s: string, attrs: Attributes, at: int)
    requires s == "" || 0 <= at < |s|
    ensures SafeAttributes(Uniform(s, attrs), at) == if s == "" then map[] else attrs
  {
    assert |Uniform(s, attrs).cells| == |Uniform(s, attrs).Plain()| == |s|;
  }

  /** The paragraph-style fields the text view reads. */
  datatype ParagraphStyle = ParagraphStyle(minimumLineHeight: real, lineSpacing: real) {

    /** The height of one line of text, as the view computes it. */
    function LineHeight(): real
    {
      minimumLineHeight + lineSpacing
    }
  }

  /** `NSParagraphStyle.materialTextViewDefault`: a minimum line height of 16
      points and a spacing of 4, so one default line is 20 points high. */
  function DefaultParagraphStyle(): (p: ParagraphStyle)
    ensures p.minimumLineHeight == 16.0 && p.lineSpacing == 4.0
    ensures p.LineHeight() == 20.0
  {
    ParagraphStyle(16.0, 4.0)
  }

  /** The line height taken from an optional paragraph style, falling back to
      the default style when the text attributes carry none. */
  function LineHeightOf(para: Option<ParagraphStyle>): (h: real)
    ensures para.None? ==> h == 20.0
    ensures para.Some? ==> h == para.value.minimumLineHeight + para.value.lineSpacing
  {
    para.GetOr(DefaultParagraphStyle()).LineHeight()
  }
}

=== FILE: view_model.dfy ===
/**
 `MaterialTextViewModel` in the revision of MaterialTextViewModel.swift: the
 record behind a text field, with a two-case error state and a two-case
 placeholder type. Every property setter is a pure transition returning the
 new record and the notifications it sends. A notification goes first to the
 bound view and then to the delegate; both are weak references in the
 source, and a nil observer simply receives nothing, i.e. drops its entries
 from the log.
 */
module ViewModel {
  import opened Optional

  /** `ValidatorResult` of this revision. */
  datatype ValidatorResult = Valid | Invalid(text: string)

  /** `Validator<String>`: a pure function of the current text. */
  type Validator = string -> ValidatorResult

  datatype ErrorState = Normal | Error(message: string) {
    predicate IsError()
    {
      match this
      case Normal => false
      case Error(_) => true
    }
  }

  datatype PlaceholderType = NormalPlaceholder | AnimatedPlaceholder

  datatype Placeholder = Placeholder(kind: PlaceholderType, text: string)

  datatype Target = View | Delegate

  /** The four callbacks of `MaterialTextViewModelDelegate`. */
  datatype Notification =
    | TextChanged(newText: string)
    | HelpChanged(newHelp: string)
    | StateChanged(isActive: bool, errorState: ErrorState)
    | PlaceholderChanged(newPlaceholder: Placeholder, isChanged: bool)

  datatype Event = Event(target: Target, note: Notification)

  datatype State = State(
    text: string,
    help: string,
    errorState: ErrorState,
    isActive: bool,
    placeholder: Placeholder,
    wasInputValid: bool,
    wasActionValid: bool,
    actionValidator: Validator,
    inputValidator: Option<Validator>)

  /** The result of a setter: the new record and the notifications, in order. */
  datatype Step = Step(state: State, events: seq<Event>)

  /** The result of `validate()`: the new record and the returned flag. */
  datatype Validated = Validated(state: State, valid: bool, events: seq<Event>)

  /** One notification sent to the view, then the same one to the delegate. */
  function Notify(n: Notification): seq<Event>
  {
    [Event(View, n), Event(Delegate, n)]
  }

  /** Every notification in `ev` was sent to the view and then, immediately
      after, identically to the delegate. */
  ghost predicate Paired(ev: seq<Event>)
    decreases |ev|
  {
    ev == [] || (|ev| >= 2 && ev[0].target == View && ev[1] == Event(Delegate, ev[0].note) && Paired(ev[2..]))
  }

  /** The number of state-changed notifications in `ev`. */
  function CountStateChanged(ev: seq<Event>): nat
  {
    if ev == [] then 0 else (if ev[0].note.StateChanged? then 1 else 0) + CountStateChanged(ev[1..])
  }

  /** `validate(validator:)`: the validator's verdict on the current text
      mapped to an error state. */
  function Outcome(result: ValidatorResult): (e: ErrorState)
    ensures e.IsError() <==> result.Invalid?
    ensures result.Invalid? ==> e.message == result.text
  {
    match result
    case Valid => Normal
    case Invalid(t) => Error(t)
  }

  /** `init(...)`: no error, inactive, the last input counted as valid and no
      action validation passed yet. Property observers do not run during
      initialisation, so nothing is notified. */
  function Init(text: string, help: string, placeholder: Placeholder,
                actionValidator: Validator, inputValidator: Option<Validator>): (s: State)
    ensures s.text == text && s.help == help && s.placeholder == placeholder
    ensures s.errorState == Normal && !s.isActive
    ensures s.wasInputValid && !s.wasActionValid
  {
    State(text, help, Normal, false, placeholder, true, false, actionValidator, inputValidator)
  }

  /** The `placeholder` setter: an equal value is ignored; otherwise the value
      is stored and the change reported with `isChanged` set. */
  function SetPlaceholder(s: State, p: Placeholder): (r: Step)
    ensures p == s.placeholder ==> r.state == s && r.events == []
    ensures p != s.placeholder ==> r.state == s.(placeholder := p) && r.events == Notify(PlaceholderChanged(p, true))
  {
    if s.placeholder == p then Step(s, [])
    else Step(s.(placeholder := p), Notify(PlaceholderChanged(p, p != s.placeholder)))
  }

  /** The `isActive` setter notifies on every assignment, equal or not. */
  function SetIsActive(s: State, active: bool): (r: Step)
    ensures r.state == s.(isActive := active)
    ensures r.events == Notify(StateChanged(active, s.errorState))
  {
    Step(s.(isActive := active), Notify(StateChanged(active, s.errorState)))
  }

  /** The `errorState` setter notifies only when the value changes. */
  function SetErrorState(s: State, e: ErrorState): (r: Step)
    ensures r.state == s.(errorState := e)
    ensures r.events == [] <==> e == s.errorState
    ensures e != s.errorState ==> r.events == Notify(StateChanged(s.isActive, e))
  {
    if s.errorState != e then Step(s.(errorState := e), Notify(StateChanged(s.isActive, e)))
    else Step(s, [])
  }

  /** The `help` setter notifies on every assignment. */
  function SetHelp(s: State, help: string): (r: Step)
    ensures r.state == s.(help := help)
    ensures r.events == Notify(HelpChanged(help))
  {
    Step(s.(help := help), Notify(HelpChanged(help)))
  }

  /** The state-changed notification a text change adds when the label has to
      move between its resting and floating position. */
  predicate NeedsRelayout(s: State, newText: string)
  {
    s.placeholder.kind == NormalPlaceholder && (s.text == "" || newText == "")
  }

  /**
   The `text` setter. Assigning the current text does nothing. Otherwise the
   text is stored, the input validator (if any) re-judges it through the
   `errorState` setter, `wasInputValid` records the outcome, a plain
   placeholder that appears or disappears is signalled by a state change, and
   the new text is announced last.
   */
  function SetText(s: State, t: string): (r: Step)
    ensures t == s.text ==> r == Step(s, [])
    ensures t != s.text ==> r.state.text == t
    ensures t != s.text ==> r.state.wasInputValid == !r.state.errorState.IsError()
    ensures t != s.text && s.inputValidator.Some? ==> r.state.errorState == Outcome(s.inputValidator.value(t))
    ensures s.inputValidator.None? ==> r.state.errorState == s.errorState
    ensures r.state == s.(text := r.state.text, errorState := r.state.errorState, wasInputValid := r.state.wasInputValid)
  {
    if s.text == t then Step(s, [])
    else
      var stored := s.(text := t);
      var validated :=
        match s.inputValidator
        case Some(v) => SetErrorState(stored, Outcome(v(t)))
        case None => Step(stored, []);
      var judged := validated.state.(wasInputValid := !validated.state.errorState.IsError());
      var relayout := if NeedsRelayout(s, t) then Notify(StateChanged(judged.isActive, judged.errorState)) else [];
      Step(judged, validated.events + relayout + Notify(TextChanged(t)))
  }

  lemma {:induction false} PairedAppend(a: seq<Event>, b: seq<Event>)
    requires Paired(a) && Paired(b)
    ensures Paired(a + b)
    decreases |a|
  {
    if a != [] {
      assert (a + b)[2..] == a[2..] + b;
      PairedAppend(a[2..], b);
    } else {
      assert a + b == b;
    }
  }

  lemma {:induction false} CountAppend(a: seq<Event>, b: seq<Event>)
    ensures CountStateChanged(a + b) == CountStateChanged(a) + CountStateChanged(b)
    decreases |a|
  {
    if a != [] {
      assert (a + b)[1..] == a[1..] + b;
      CountAppend(a[1..], b);
    } else {
      assert a + b == b;
    }
  }

  /**
   The notifications of an effective text change: they come in view/delegate
   pairs, end with the new text, and hold one state-changed pair for an
   error-state change plus one more exactly when a plain placeholder shows or
   hides (never for an animated placeholder).
   */
  lemma SetTextEvents(s: State, t: string)
    requires t != s.text
    ensures var r := SetText(s, t);
      && Paired(r.events)
      && |r.events| >= 2
      && r.events[|r.events| - 2..] == Notify(TextChanged(t))
      && CountStateChanged(r.events)
         == (if r.state.errorState != s.errorState then 2 else 0) + (if NeedsRelayout(s, t) then 2 else 0)
    ensures var r := SetText(s, t);
      forall i :: 0 <= i < |r.events| - 2 ==> r.events[i].note == StateChanged(s.isActive, r.state.errorState)
  {
    var r := SetText(s, t);
    var stored := s.(text := t);
    var validated :=
      match s.inputValidator
      case Some(v) => SetErrorState(stored, Outcome(v(t)))
      case None => Step(stored, []);
    var judged := validated.state.(wasInputValid := !validated.state.errorState.IsError());
    var relayout := if NeedsRelayout(s, t) then Notify(StateChanged(judged.isActive, judged.errorState)) else [];
    var tail := Notify(TextChanged(t));
    assert r.events == validated.events + relayout + tail;
    NotifyFacts(TextChanged(t));
    NotifyFacts(StateChanged(judged.isActive, judged.errorState));
    if s.inputValidator.Some? {
      NotifyFacts(StateChanged(stored.isActive, Outcome(s.inputValidator.value(t))));
    }
    PairedAppend(validated.events, relayout);
    PairedAppend(validated.events + relayout, tail);
    CountAppend(validated.events, relayout);
    CountAppend(validated.events + relayout, tail);
    StateChangesCarryNewState(s, t);
  }

  /** Before the final text notification, a text change sends only state
      changes, each with the unchanged activity and the new error state. */
  lemma StateChangesCarryNewState(s: State, t: string)
    requires t != s.text
    ensures var r := SetText(s, t);
      forall i :: 0 <= i < |r.events| - 2 ==> r.events[i].note == StateChanged(s.isActive, r.state.errorState)
  {
    var r := SetText(s, t);
    var stored := s.(text := t);
    var validated :=
      match s.inputValidator
      case Some(v) => SetErrorState(stored, Outcome(v(t)))
      case None => Step(stored, []);
    var judged := validated.state.(wasInputValid := !validated.state.errorState.IsError());
    var relayout := if NeedsRelayout(s, t) then Notify(StateChanged(judged.isActive, judged.errorState)) else [];
    var front := validated.events + relayout;
    assert r.events == front + Notify(TextChanged(t));
    var changed := StateChanged(s.isActive, r.state.errorState);
    assert forall i :: 0 <= i < |validated.events| ==> validated.events[i].note == changed;
    assert forall i :: 0 <= i < |relayout| ==> relayout[i].note == changed;
    assert forall i :: 0 <= i < |front| ==> front[i].note == changed;
  }

  /** A single notification is one view/delegate pair, counted twice if it is
      a state change. */
  lemma NotifyFacts(n: Notification)
    ensures Paired(Notify(n))
    ensures CountStateChanged(Notify(n)) == if n.StateChanged? then 2 else 0
  {
    assert Notify(n)[2..] == [];
    assert Notify(n)[1..] == [Event(Delegate, n)];
    assert CountStateChanged([Event(Delegate, n)]) == if n.StateChanged? then 1 else 0 by {
      assert [Event(Delegate, n)][1..] == [];
    }
  }

  /** With an animated placeholder a text change never adds a state change of
      its own: any state-changed pair comes from the error state. */
  lemma AnimatedTextChangeHasNoRelayout(s: State, t: string)
    requires t != s.text && s.placeholder.kind == AnimatedPlaceholder
    ensures CountStateChanged(SetText(s, t).events) == (if SetText(s, t).state.errorState != s.errorState then 2 else 0)
  {
    SetTextEvents(s, t);
  }

  /** Every setter sends each notification to the view first and then,
      identically, to the delegate. */
  lemma SettersNotifyViewThenDelegate(s: State, p: Placeholder, active: bool, e: ErrorState, help: string, t: string)
    ensures Paired(SetPlaceholder(s, p).events)
    ensures Paired(SetIsActive(s, active).events)
    ensures Paired(SetErrorState(s, e).events)
    ensures Paired(SetHelp(s, help).events)
    ensures Paired(SetText(s, t).events)
    ensures Paired(Validate(s).events)
  {
    NotifyFacts(PlaceholderChanged(p, true));
    NotifyFacts(StateChanged(active, s.errorState));
    NotifyFacts(StateChanged(s.isActive, e));
    NotifyFacts(StateChanged(s.isActive, Outcome(s.actionValidator(s.text))));
    NotifyFacts(HelpChanged(help));
    if t != s.text {
      SetTextEvents(s, t);
    }
  }

  /** A record whose error state and `wasInputValid` agree with the input
      validator's verdict on its text. */
  ghost predicate InputConsistent(s: State)
  {
    && s.wasInputValid == !s.errorState.IsError()
    && (s.inputValidator.Some? ==> s.errorState == Outcome(s.inputValidator.value(s.text)))
  }

  /** A run of assignments to `text`. */
  function AssignTexts(s: State, ts: seq<string>): State
    decreases |ts|
  {
    if ts == [] then s else AssignTexts(SetText(s, ts[0]).state, ts[1..])
  }

  lemma {:induction false} AssignTextsKeepsConsistency(s: State, ts: seq<string>)
    requires InputConsistent(s)
    ensures InputConsistent(AssignTexts(s, ts))
    decreases |ts|
  {
    if ts != [] {
      AssignTextsKeepsConsistency(SetText(s, ts[0]).state, ts[1..]);
    }
  }

  /** A new view-model agrees with its input validator as long as that
      validator, if there is one, accepts the initial text; text assignments
      then keep it in agreement. */
  lemma InitConsistent(text: string, help: string, placeholder: Placeholder,
                       actionValidator: Validator, inputValidator: Option<Validator>, ts: seq<string>)
    requires inputValidator.Some? ==> inputValidator.value(text) == Valid
    ensures InputConsistent(Init(text, help, placeholder, actionValidator, inputValidator))
    ensures InputConsistent(AssignTexts(Init(text, help, placeholder, actionValidator, inputValidator), ts))
  {
    AssignTextsKeepsConsistency(Init(text, help, placeholder, actionValidator, inputValidator), ts);
  }

  /**
   After any run of text assignments, either nothing changed at all (every
   assignment repeated the current text) or the error state is the input
   validator's verdict on the final text and `wasInputValid` agrees with it.
   */
  lemma {:induction false} AssignTextsEndsConsistent(s: State, ts: seq<string>)
    ensures AssignTexts(s, ts) == s || InputConsistent(AssignTexts(s, ts))
    decreases |ts|
  {
    if ts != [] {
      var s1 := SetText(s, ts[0]).state;
      if ts[0] == s.text {
        AssignTextsEndsConsistent(s1, ts[1..]);
      } else {
        AssignTextsKeepsConsistency(s1, ts[1..]);
      }
    }
  }

  /**
   `validate()` AS WRITTEN in this revision: it stores the action verdict's
   `isError` (not its negation) into `wasInputValid`, never touches the error
   state and returns `wasActionValid`, which nothing in the view model assigns.
   */
  function ValidateAsWritten(s: State): (r: Validated)
    ensures r.state.wasInputValid <==> s.actionValidator(s.text).Invalid?
    ensures r.state == s.(wasInputValid := r.state.wasInputValid)
    ensures r.valid == s.wasActionValid && r.events == []
  {
    Validated(s.(wasInputValid := Outcome(s.actionValidator(s.text)).IsError()), s.wasActionValid, [])
  }

  /** A text the action validator accepts is reported as invalid input and
      `validate()` answers false: the flag is inverted and the answer stale. */
  lemma ValidateAsWrittenRejectsValidText()
    ensures var s := Init("", "", Placeholder(NormalPlaceholder, ""), _ => Valid, None);
      var r := ValidateAsWritten(s);
      s.actionValidator(s.text) == Valid && !r.state.wasInputValid && !r.valid
  {
  }

  /**
   `validate()` as evidently intended (and as the view's own `validate()`
   does it): the action verdict on the current text becomes the error state
   through its setter, `wasActionValid` records it and is returned. The last
   input verdict plays no part.
   */
  function Validate(s: State): (r: Validated)
    ensures r.valid <==> s.actionValidator(s.text).Valid?
    ensures r.state.errorState == Outcome(s.actionValidator(s.text))
    ensures r.state.wasActionValid == r.valid
    ensures r.state == s.(errorState := r.state.errorState, wasActionValid := r.valid)
    ensures r.events == [] <==> r.state.errorState == s.errorState
  {
    var judged := SetErrorState(s, Outcome(s.actionValidator(s.text)));
    var ok := !judged.state.errorState.IsError();
    Validated(judged.state.(wasActionValid := ok), ok, judged.events)
  }

  /** The scenario of an input validator refusing texts longer than five
      characters. */
  lemma LengthValidatorScenario()
    ensures
      var v: Validator := t => if |t| > 5 then Invalid("too long") else Valid;
      var s0 := Init("", "", Placeholder(NormalPlaceholder, ""), _ => Valid, Some(v));
      var s1 := SetText(s0, "123456").state;
      var s2 := SetText(s1, "123").state;
      s1.errorState == Error("too long") && !s1.wasInputValid
      && s2.errorState == Normal && s2.wasInputValid
  {
  }
}
